=== FILE: README.md ===
# Spotinst instances monitor and gateway, modelled in Dafny

This project models two parts of the Spotinst Jenkins plugin.

**The instances monitor** (`SpotinstInstancesMonitor`) is a periodic tick over two tables.
- The *waiting* table maps group id → spot request id → tracked request.
- The *initiating* table maps group id → instance id → tracked request.

A tracked request (`ContextInstance`) holds an executor count, an optional label and a creation time. On each tick:
- A waiting request older than `TIMEOUT` (10 minutes) is dropped.
- A younger waiting request is looked up at the provider. Once it is bound to an instance, and a placeholder node named after the request exists, three things happen: the node is renamed to the instance id, the request moves to the initiating table, and its waiting entry is removed.
- An exception while handling one group ends only that group.
- Afterwards, every initiating entry older than the timeout is dropped.

The tick is the pure function-and-method pair `Monitor.WaitingPass` / `Monitor.Execute` over a `State(waiting, initiating, nodes)`. Time is in integer minutes. The node registry is a map from node name to `Node(name, instanceId, elastigroupId)`. The provider's reply to each spot-request lookup is a parameter.

**The REST gateway** (`SpotinstGateway`) has one builder per call for the request it sends: URL, headers, query and body. It also has a pure classifier of the abstract reply `Transport<T> = Exception | Response(status, items, parseOk)`:
- token validation gives a code 0/1/2;
- detach gives a boolean;
- the spot-request lookup and both scale-ups give the first item or nothing;
- the instance listing gives nothing, an empty list or the full list.

Files:
- `wrappers.dfy`: `Option`, which stands in for Java's null.
- `text.dfy`: Java's `String.valueOf(int)` with a parser for it, and `String.replace`.
- `gateway.dfy`: requests and reply classification.
- `context.dfy`: the nested tables and their insert and remove operations.
- `monitor.dfy`: the tick.

Points where the model follows the code literally:
- **Which group gets the promoted entry.** The promoted entry goes to the group stored on the placeholder node (`node.getElastigroupId()`, SpotinstInstancesMonitor.java:86-93), not to the group being handled. If that group has no waiting entry for the request id, reading its label throws a null-pointer exception. By then the node has already been renamed. The exception ends the handling of the whole group (caught at lines 150-154). `Monitor.UpdateNodeName` and `Monitor.HandleGroup` model this as `Aborted`, with the rename kept.
- **Detach body spacing.** The detach body keeps the exact spacing of the template literal at SpotinstGateway.java:138.
- **The "20 minutes" log text.** The log messages at lines 59 and 134 say "20 minutes", but the constant is `TIMEOUT = 10`. The model uses the constant.

## Model

| member | source | states |
|---|---|---|
| Gateway.BuildHeaders | src/main/java/hudson/plugins/spotinst/common/SpotinstGateway.java:34-40 | There are exactly two headers, `Authorization` and `Content-Type`. The authorization value is a bearer credential that reads back as the given token. The content type is `application/json`. Token validation builds the same pair inline at lines 72-74 and 156-158. |
| Gateway.StatusUrlInjective | src/main/java/hudson/plugins/spotinst/common/SpotinstGateway.java:45-50 | The status URL `https://api.spotinst.io` + `/aws/ec2` or `/gcp/gce` + `/group/` + id + `/status` determines both the cloud and the group id (the GCP variant is at line 223). |
| Gateway.ElastigroupInstances | src/main/java/hudson/plugins/spotinst/common/SpotinstGateway.java:45-68 | The result is null exactly when the reply is an exception or a non-200 status. On 200 the result is the reply's items in order, or an empty list (not null) when the body does not map, because the list is allocated before parsing. The GCP listing at lines 218-241 behaves the same. |
| Gateway.ValidateToken | src/main/java/hudson/plugins/spotinst/common/SpotinstGateway.java:70-89 | The code is always 0, 1 or 2. It is 0 exactly on status 200 and 1 exactly on status 401. Every other status, and a transport exception, gives 2. The GCP validation at lines 154-173 gives the same code for the same reply. |
| Gateway.ScaleUpRequest | src/main/java/hudson/plugins/spotinst/common/SpotinstGateway.java:91-100 | Scale-up is a PUT with no body to `/aws/ec2/group/<groupId>/scale/up` (line 100; `/gcp/gce/…` at line 184). It carries exactly the headers `BuildHeaders(token)` gives (lines 94, 178). Its only query parameter is `adjustment`, whose value parses back to the adjustment, negative values included. The value is in the canonical form `String.valueOf` writes: no leading zero and no `-0`. The GCP scale-up is at lines 175-184. |
| Text.DecimalRoundTrip | src/main/java/hudson/plugins/spotinst/common/SpotinstGateway.java:97 | The decimal rendering of every integer, `String.valueOf(adjustment)`, parses back to that integer. |
| Text.DecimalUnique | src/main/java/hudson/plugins/spotinst/common/SpotinstGateway.java:97 | A canonical decimal string is the rendering of the integer it parses to. So the scale-up query value is exactly `String.valueOf(adjustment)`, the same string at line 181. |
| Gateway.ValidateTokenRequest | src/main/java/hudson/plugins/spotinst/common/SpotinstGateway.java:70-77 | Token validation is a GET of `/aws/ec2/group` (line 161: `/gcp/gce/group`) with no body and no query. Its headers are exactly `BuildHeaders(token)` (line 74, line 158): the bearer credential reads back as the token passed in (line 73), and `Content-Type` is `application/json`. |
| Gateway.StatusRequest | src/main/java/hudson/plugins/spotinst/common/SpotinstGateway.java:45-50 | The instance listing is a GET with no body and no query, carrying the stored token's headers, to the status URL of the group (line 223 for GCP). |
| Gateway.SpotRequestLookup | src/main/java/hudson/plugins/spotinst/common/SpotinstGateway.java:115-120 | The spot-request lookup is a GET with no body and no query, carrying the stored token's headers. Its URL is `https://api.spotinst.io/aws/ec2/spot/` followed by exactly the request id. |
| Gateway.AwsDetachRequest | src/main/java/hudson/plugins/spotinst/common/SpotinstGateway.java:135-141 | The AWS detach is a PUT with no query, carrying the stored token's headers, to `/aws/ec2/instance/detach`. Its body is the template text around the instance id. |
| Gateway.GcpDetachRequest | src/main/java/hudson/plugins/spotinst/common/SpotinstGateway.java:199-205 | The GCP detach is a PUT with no query, carrying the stored token's headers, to `/gcp/gce/group/` + group id + `/detachInstances`. Its body is the template text around the instance name. |
| Gateway.FirstItem | src/main/java/hudson/plugins/spotinst/common/SpotinstGateway.java:115-133 | The spot-request lookup returns the first item exactly when the reply is a 200 whose body maps and has at least one item. It returns null for an empty list, a non-200 status, an unmappable body or an exception. Both scale-ups (lines 101-105, 185-189) follow the same rule. |
| Gateway.DetachTemplateReplaced | src/main/java/hudson/plugins/spotinst/common/SpotinstGateway.java:138-139 | Replacing every `{INSTANCE_ID}` in the template gives exactly the text before the placeholder, then the id, then the text after it. |
| Gateway.DetachBody | src/main/java/hudson/plugins/spotinst/common/SpotinstGateway.java:138-139 | The detach body is the template with its single placeholder replaced by the instance id. Every other character of the template is unchanged. The GCP body at lines 202-203 is built the same way. |
| Gateway.DetachBodyInjective | src/main/java/hudson/plugins/spotinst/common/SpotinstGateway.java:202-203 | The id can be read back from the body, so distinct ids give distinct detach bodies. |
| Gateway.DetachInstance | src/main/java/hudson/plugins/spotinst/common/SpotinstGateway.java:135-152 | Detach reports success exactly when the reply is a status 200. A transport exception or any other status gives false. The GCP detach is at lines 199-216. |
| Context.Remove | src/main/java/hudson/plugins/spotinst/jobs/SpotinstInstancesMonitor.java:60 | Removing a request leaves it absent and leaves every other entry unchanged. The group key stays, so an emptied group reads as empty. |
| Context.Put | src/main/java/hudson/plugins/spotinst/jobs/SpotinstInstancesMonitor.java:92 | Adding an entry makes it present with the given value, creates the group if needed, and leaves every other entry unchanged. |
| Monitor.TimeoutBoundary | src/main/java/hudson/plugins/spotinst/jobs/SpotinstInstancesMonitor.java:96-109 | The timeout has passed only strictly after `from + minutes`. At exactly `from + minutes` it has not passed, one minute later it has, and once passed it stays passed. |
| Monitor.ResolvedInstanceId | src/main/java/hudson/plugins/spotinst/jobs/SpotinstInstancesMonitor.java:62-66 | A request counts as bound exactly when the lookup reply is a mappable 200 with a first item that carries an instance id. That id is the result. |
| Monitor.RenameNode | src/main/java/hudson/plugins/spotinst/jobs/SpotinstInstancesMonitor.java:82-86 | After the rename, the node is registered under the instance id, and its name and instance id both equal that id. It keeps its group. Its old name is gone unless it equals the instance id. Every other node is unchanged. |
| Monitor.UpdateNodeName | src/main/java/hudson/plugins/spotinst/jobs/SpotinstInstancesMonitor.java:78-94 | The node is renamed. If the node's group has a waiting entry for the request, that entry is removed and an initiating entry appears under the instance id, carrying the given executor count, the entry's label and the current time; nothing else changes. If the group has no such entry, the call throws with the rename already made and both tables unchanged. |
| Monitor.HandleSpotRequest | src/main/java/hudson/plugins/spotinst/jobs/SpotinstInstancesMonitor.java:55-76 | A stuck request is removed from waiting; initiating, nodes and every other waiting entry are unchanged. A young request that is unbound, or has no placeholder node, leaves the state unchanged. A bound request whose node is in its own group ends up in initiating only, under the instance id, with its executor count and label, and its node is renamed. A waiting entry leaves only when it is this stuck request or its id is bound. Initiating entries change only under the instance id the request is bound to. The nodes are either unchanged or exactly the placeholder renamed to that id. |
| Monitor.StuckRequestSkipsLookup | src/main/java/hudson/plugins/spotinst/jobs/SpotinstInstancesMonitor.java:56-63 | Handling a stuck request does not depend on the provider's replies: no lookup is made for it. |
| Monitor.HandleGroup | src/main/java/hudson/plugins/spotinst/jobs/SpotinstInstancesMonitor.java:42-53 | Handling a group never adds to waiting. Initiating entries are never lost, and new or changed ones are fresh. A waiting entry leaves only if it is a stuck request of this group or its id is bound. If the group completes, every stuck request it visited is gone. The group throws only if one of its requests is young and bound: of the exceptions the source can raise here, the model has only the label read in `updateNodeName`. |
| Monitor.HandleGroupPromotes | src/main/java/hudson/plugins/spotinst/jobs/SpotinstInstancesMonitor.java:42-94 | Suppose the group's request ids are distinct, their waiting entries are the snapshot's, their placeholder nodes belong to this group, and distinct bound requests have distinct instance ids. Then the group completes. Every young, bound request with a node has left waiting and sits in initiating under its instance id, in this group, with its executor count and label, stamped now. |
| Monitor.HandleGroupRenamesOne | src/main/java/hudson/plugins/spotinst/jobs/SpotinstInstancesMonitor.java:42-94 | Under the premises of `HandleGroupPromotes`, and when no bound instance id is a request id of the group, a young, bound request with a node leaves the group with its node registered under the instance id. The node carries that id as name and instance id, and the group's id. |
| Monitor.WaitingPass | src/main/java/hudson/plugins/spotinst/jobs/SpotinstInstancesMonitor.java:144-159 | Every stuck request of a group that did not throw is removed, so a group that throws does not stop the others. A group is recorded as thrown only if it was visited and one of its requests is young and bound. The waiting and initiating frame facts of `HandleGroup` also hold for the whole pass. |
| Monitor.WaitingPassPromotes | src/main/java/hudson/plugins/spotinst/jobs/SpotinstInstancesMonitor.java:141-159 | The group-level promotion lifted to the whole pass. The extra premises are that groups are visited once, no request id waits in two groups, and no bound instance id is also a waiting request id. Under them no group throws, and every young, bound request with a placeholder node, in whichever group, ends the pass promoted in its own group. |
| Monitor.WaitingPassNodesFrame | src/main/java/hudson/plugins/spotinst/jobs/SpotinstInstancesMonitor.java:141-159 | The pass touches the registry only through `updateNodeName`. A name that is neither a request id of a visited group nor the instance id of one of those requests keeps its node, or its absence. |
| Monitor.WaitingPassRenamesOne | src/main/java/hudson/plugins/spotinst/jobs/SpotinstInstancesMonitor.java:78-94 | Under the premises of `WaitingPassPromotes`, a young, bound request with a placeholder node ends the pass with a node registered under its instance id. That node's name and instance id are the id, and its group is the request's. No later group undoes the rename. |
| Monitor.HandleInitiatingInstance | src/main/java/hudson/plugins/spotinst/jobs/SpotinstInstancesMonitor.java:130-137 | An initiating entry is removed exactly when it is stuck. Every other entry is unchanged. |
| Monitor.HandleInitiatingForGroup | src/main/java/hudson/plugins/spotinst/jobs/SpotinstInstancesMonitor.java:122-128 | For any iteration order, the group keeps exactly its entries that are not stuck, with their values unchanged. Other groups are untouched. |
| Monitor.RemoveStuckInitiatingInstances | src/main/java/hudson/plugins/spotinst/jobs/SpotinstInstancesMonitor.java:111-120 | For any iteration order, the sweep keeps exactly the initiating entries that are not stuck, with unchanged values and the same group keys. It never adds entries. |
| Monitor.Execute | src/main/java/hudson/plugins/spotinst/jobs/SpotinstInstancesMonitor.java:141-162 | After one tick, waiting has only lost entries. A group throws only if it had a young request that the provider reports bound. Every stuck waiting request is gone unless its own group threw, so it is always gone when no young request of its group is bound. A young request the provider has not bound stays, whatever happened in other groups. The initiating sweep runs even when nothing is waiting: no stuck initiating entry survives, no young one is lost, and each survivor is either carried over unchanged or was created during this tick. When no request id waits in two groups, every placeholder node sits in its request's group, and the provider bound distinct requests to distinct, fresh instance ids, no group throws. Every young, bound request with a node then ends the tick in initiating, under its instance id, and survives the sweep. Its node is then registered under the instance id (lines 82-85), with that id as both name and instance id, in the request's group. The registry changes only at names that some waiting request is named after or bound to. Every other node keeps its presence and its value. |

## Left out

- HTTP I/O (`RestClient`: connections, stream reading, URI building) is left out. Every call is reduced to the abstract `Transport` reply it produces. The request builders record what is sent.
- JSON mapping (`JsonMapper`) is not part of this model. A reply carries the mapped items, or `parseOk = false` when mapping throws.
- `SpotinstContext` is not part of this model. Its add and remove operations are plain map insert and delete (`Context.Put`, `Context.Remove`). An initiating entry is assumed to be stamped with the current time, since the add call passes no date. The API token it supplies is a parameter of the request builders. Re-adding a waiting request is not modelled, because no core operation does it.
- The Jenkins node registry is a finite map from name to node. `getNode`, `removeNode` and `addNode` are map lookup, delete and insert, and `addNode` replaces a node of the same name.
- The Java maps are iterated live and may be modified concurrently. Scheduling (`AsyncPeriodicWork`, every 30 seconds) is also left out. The model is one sequential tick over the waiting table as it stands at the start of the tick. Iteration order is a parameter (`GroupVisit` sequence), since hash-map order is unspecified. Each request's entry is read from that snapshot.
- `Calendar`/`Date` arithmetic, including daylight-saving handling, is left out. Time is in whole minutes.
- Logging is left out.
- Removal while iterating is assumed safe. The waiting pass removes entries (lines 60 and 93) from the map whose key set it is iterating (line 47), and the initiating sweep does the same (line 135 inside the loop at line 125). The model assumes the context's maps tolerate this. With plain hash maps the next step of the iteration would throw `ConcurrentModificationException`. In the waiting pass that would end the rest of the group, caught at lines 152-154, whose log message hints at this. In the initiating sweep it would escape `execute`.
- Monitor.HandleInitiatingInstance: requires the entry to be present. The source reads it without a null check and would throw out of `execute`. The sweep only visits present keys.
- Text.ReplaceAll: requires a non-empty pattern. Java's `replace` with an empty target inserts the replacement between all characters, but the gateway only replaces the non-empty `{INSTANCE_ID}`.
- Monitor.Execute: promotion for the whole tick is stated only under three premises the source does not check: one group per request id, placeholder nodes in their request's group, and distinct, fresh instance ids. Without them a rename earlier in the tick can create or replace the node that a later request looks up. Per request, `Monitor.HandleSpotRequest` and `Monitor.UpdateNodeName` state promotion without premises.
- Monitor.Execute: reads the clock once per tick, and every timeout test uses that reading. The source takes a fresh `new Date()` in each `isTimePassed` call (SpotinstInstancesMonitor.java:98), and the provider lookups between calls have no timeout. So a slow tick can see a later time in the initiating sweep than in the waiting pass, and evict an initiating entry that the model keeps. The promise that no young initiating entry is lost holds for one reading of the clock.
- Monitor.HandleGroup: registry failures are not modelled. `removeNode` and `addNode` (SpotinstInstancesMonitor.java:82, 85) can throw `IOException`, and the `(SpotinstSlave)` cast at line 69 can throw for a node of another type. Each would end the group. If `addNode` throws after `removeNode`, the node is lost, whereas `Monitor.RenameNode` always re-registers it. The only exception modelled is the waiting-entry read at line 89, so the claim that a group throws only for a young, bound request holds for the model, not for every registry.
- Monitor.WaitingPass: its own contract states removal and frame facts only. Promotion for the pass is in `Monitor.WaitingPassPromotes`, under that lemma's premises.

=== FILE: context.dfy ===
/**
  The bookkeeping tables of `SpotinstContext`: the waiting table
  (group id -> spot request id -> tracked request) and the initiating table
  (group id -> instance id -> tracked request) share one shape. Its add and
  remove operations are plain map updates; removing the last entry of a group
  keeps the (now empty) group.
 */
module Context {
  import opened Wrappers

  /** A tracked request: executors and label (`nodeLabel`) for the eventual node, and its creation minute. */
  datatype ContextInstance = ContextInstance(numOfExecutors: int, nodeLabel: Option<string>, createdAt: int)

  type Table = map<string, map<string, ContextInstance>>

  /** The entries of a group; an absent group reads as empty. */
  function Entries(t: Table, groupId: string): map<string, ContextInstance> {
    if groupId in t then t[groupId] else map[]
  }

  function Lookup(t: Table, groupId: string, key: string): Option<ContextInstance> {
    if groupId in t && key in t[groupId] then Some(t[groupId][key]) else None
  }

  /** The two tables agree everywhere except possibly at `(groupId, key)`. */
  ghost predicate AgreeExcept(t: Table, t': Table, groupId: string, key: string) {
    forall g, k :: (g != groupId || k != key) ==> Lookup(t', g, k) == Lookup(t, g, k)
  }

  /** Insert or overwrite one entry, creating the group if needed. */
  function Put(t: Table, groupId: string, key: string, value: ContextInstance): (t': Table)
    ensures Lookup(t', groupId, key) == Some(value)
    ensures AgreeExcept(t, t', groupId, key)
    ensures t'.Keys == t.Keys + {groupId}
  {
    t[groupId := Entries(t, groupId)[key := value]]
  }

  /** Remove one entry if present; the group key stays. */
  function Remove(t: Table, groupId: string, key: string): (t': Table)
    ensures Lookup(t', groupId, key) == None
    ensures AgreeExcept(t, t', groupId, key)
    ensures t'.Keys == t.Keys
  {
    if groupId in t then t[groupId := t[groupId] - {key}] else t
  }
}

=== FILE: gateway.dfy ===
/**
  The Spotinst REST gateway. Every public operation of the Java class sends one
  request and classifies the reply; here each is split into a builder of the
  request it sends and a pure classifier of the abstract `Transport` reply
  (the HTTP round trip and the JSON mapping are not modelled).
 */
module Gateway {
  import opened Wrappers
  import opened Text

  /**
    What the transport hands back: either the call threw (network failure,
    stream error), or a status code with the items of the `response` envelope;
    `parseOk` is false when mapping the body to the envelope threw.
   */
  datatype Transport<T> = Exception | Response(status: int, items: seq<T>, parseOk: bool)

  /** Replies whose body is never read (token validation, detach). */
  datatype Unit = Unit

  /** The provider's record of a spot request; `instanceId` is `None` until an instance is bound. */
  datatype SpotRequest = SpotRequest(spotInstanceRequestId: string, instanceId: Option<string>, state: string)

  datatype Verb = HttpGet | HttpPut
  datatype Request = Request(verb: Verb, url: string, headers: map<string, string>, query: map<string, string>, body: Option<string>)
  datatype Cloud = Aws | Gcp

  /** Java's `int` parameter type. */
  newtype int32 = x: int | -0x8000_0000 <= x < 0x8000_0000

  const Host := "https://api.spotinst.io"
  const StatusOk := 200
  const StatusUnauthorized := 401

  /** Token validation codes. */
  const TokenValid := 0
  const TokenUnauthorized := 1
  const TokenError := 2

  const AuthorizationHeader := "Authorization"
  const ContentTypeHeader := "Content-Type"
  const JsonContentType := "application/json"
  const BearerPrefix := "Bearer "

  /**
    The detach body template of both detach calls, written as the pieces
    around its single `{INSTANCE_ID}` placeholder; the concatenation is,
    character for character, the template literal of the source.
   */
  const InstanceIdPlaceholder := "{INSTANCE_ID}"
  const DetachOpen := "{"
  const InstancesField := "\"instancesToDetach\" :[\""
  const DetachPrefix := DetachOpen + InstancesField
  const DetachClose := "\"]"
  const TerminateField := ",\"shouldTerminateInstances\" : true"
  const DecrementField := ", \"shouldDecrementTargetCapacity\" : true"
  const DetachSuffix := DetachClose + TerminateField + DecrementField + "}"
  const DetachTemplate := DetachPrefix + InstanceIdPlaceholder + DetachSuffix

  function CloudPath(cloud: Cloud): string {
    match cloud
    case Aws => "/aws/ec2"
    case Gcp => "/gcp/gce"
  }

  // ---------------------------------------------------------------------------
  // Request building
  // ---------------------------------------------------------------------------

  /** The token carried by an `Authorization` value, if it is a bearer credential. */
  function BearerToken(value: string): Option<string> {
    if |value| >= |BearerPrefix| && value[..|BearerPrefix|] == BearerPrefix
    then Some(value[|BearerPrefix|..])
    else None
  }

  /** The two headers every call carries, and nothing else. */
  function BuildHeaders(token: string): (headers: map<string, string>)
    ensures headers.Keys == {AuthorizationHeader, ContentTypeHeader}
    ensures BearerToken(headers[AuthorizationHeader]) == Some(token)
    ensures headers[ContentTypeHeader] == JsonContentType
  {
    var authorization := BearerPrefix + token;
    assert authorization[..|BearerPrefix|] == BearerPrefix;
    assert authorization[|BearerPrefix|..] == token;
    map[AuthorizationHeader := authorization, ContentTypeHeader := JsonContentType]
  }

  function StatusUrl(cloud: Cloud, groupId: string): string {
    Host + CloudPath(cloud) + "/group/" + groupId + "/status"
  }

  /** Distinct groups, or the same group on distinct clouds, are polled at distinct URLs. */
  lemma StatusUrlInjective(cloud1: Cloud, groupId1: string, cloud2: Cloud, groupId2: string)
    requires StatusUrl(cloud1, groupId1) == StatusUrl(cloud2, groupId2)
    ensures cloud1 == cloud2 && groupId1 == groupId2
  {
    var u := StatusUrl(cloud1, groupId1);
    var head1 := Host + CloudPath(cloud1) + "/group/";
    var head2 := Host + CloudPath(cloud2) + "/group/";
    assert |head1| == |head2| == 38;
    assert u == head1 + groupId1 + "/status";
    assert u == head2 + groupId2 + "/status";
    assert u[..38] == head1 == head2;
    assert head1[24] == CloudPath(cloud1)[1];
    assert head2[24] == CloudPath(cloud2)[1];
    assert u[38..|u| - 7] == groupId1;
    assert u[38..|u| - 7] == groupId2;
  }

  /** Token validation: a bodiless GET of the cloud's group listing, authorised with the token under test. */
  function ValidateTokenRequest(cloud: Cloud, token: string): (request: Request)
    ensures request.verb == HttpGet && request.body == None && request.query == map[]
    ensures request.url == Host + CloudPath(cloud) + "/group"
    ensures request.headers == BuildHeaders(token)
  {
    Request(HttpGet, Host + CloudPath(cloud) + "/group", BuildHeaders(token), map[], None)
  }

  /** The instance listing: a bodiless GET of the group's status URL. */
  function StatusRequest(cloud: Cloud, token: string, groupId: string): (request: Request)
    ensures request.verb == HttpGet && request.body == None && request.query == map[]
    ensures request.url == StatusUrl(cloud, groupId)
    ensures request.headers == BuildHeaders(token)
  {
    Request(HttpGet, StatusUrl(cloud, groupId), BuildHeaders(token), map[], None)
  }

  const SpotLookupPrefix := Host + "/aws/ec2/spot/"

  /** The spot-request lookup: a bodiless GET whose URL ends with the request id, which reads back from it. */
  function SpotRequestLookup(token: string, spotRequestId: string): (request: Request)
    ensures request.verb == HttpGet && request.body == None && request.query == map[]
    ensures |request.url| >= |SpotLookupPrefix| && request.url[..|SpotLookupPrefix|] == SpotLookupPrefix
    ensures request.url[|SpotLookupPrefix|..] == spotRequestId
    ensures request.headers == BuildHeaders(token)
  {
    var url := SpotLookupPrefix + spotRequestId;
    assert url[..|SpotLookupPrefix|] == SpotLookupPrefix;
    assert url[|SpotLookupPrefix|..] == spotRequestId;
    Request(HttpGet, url, BuildHeaders(token), map[], None)
  }

  /** The scale-up call: a bodiless PUT whose `adjustment` query parameter reads back as the adjustment. */
  function ScaleUpRequest(cloud: Cloud, token: string, groupId: string, adjustment: int32): (request: Request)
    ensures request.verb == HttpPut && request.body == None
    ensures request.url == Host + CloudPath(cloud) + "/group/" + groupId + "/scale/up"
    ensures request.headers == BuildHeaders(token)
    ensures request.query.Keys == {"adjustment"}
    ensures ParseDecimal(request.query["adjustment"]) == Some(adjustment as int)
    // the form `String.valueOf` writes, which `Text.DecimalUnique` shows is the only such string
    ensures CanonicalDecimal(request.query["adjustment"])
  {
    DecimalRoundTrip(adjustment as int);
    Request(HttpPut, Host + CloudPath(cloud) + "/group/" + groupId + "/scale/up", BuildHeaders(token),
            map["adjustment" := IntToDecimal(adjustment as int)], None)
  }

  /** The pieces of the template other than its opening brace and placeholder contain no brace. */
  lemma FieldsHaveNoBrace()
    ensures '{' !in InstancesField && '{' !in DetachSuffix
  {
    FlagsHaveNoBrace();
  }

  lemma FlagsHaveNoBrace()
    ensures '{' !in TerminateField && '{' !in DecrementField
  {
  }

  lemma DetachTemplateReplaced(instanceId: string)
    ensures ReplaceAll(DetachTemplate, InstanceIdPlaceholder, instanceId) == DetachPrefix + instanceId + DetachSuffix
  {
    FieldsHaveNoBrace();
    assert InstancesField[0] != InstanceIdPlaceholder[1];
    assert DetachOpen == [InstanceIdPlaceholder[0]];
    ReplaceAllSingle(InstanceIdPlaceholder[0], InstancesField, InstanceIdPlaceholder, DetachSuffix, instanceId);
  }

  /** The detach body: the template with its one placeholder replaced by the instance id. */
  function DetachBody(instanceId: string): (body: string)
    ensures body == DetachPrefix + instanceId + DetachSuffix
  {
    DetachTemplateReplaced(instanceId);
    ReplaceAll(DetachTemplate, InstanceIdPlaceholder, instanceId)
  }

  /** The instance id can be read back from the detach body, so distinct ids give distinct bodies. */
  lemma DetachBodyInjective(instanceId1: string, instanceId2: string)
    requires DetachBody(instanceId1) == DetachBody(instanceId2)
    ensures instanceId1 == instanceId2
  {
    var b := DetachBody(instanceId1);
    assert b[|DetachPrefix|..|b| - |DetachSuffix|] == instanceId1;
    assert b[|DetachPrefix|..|b| - |DetachSuffix|] == instanceId2;
  }

  /** The AWS detach call: a PUT of the detach body for the instance, with no query. */
  function AwsDetachRequest(token: string, instanceId: string): (request: Request)
    ensures request.verb == HttpPut && request.query == map[]
    ensures request.url == Host + "/aws/ec2/instance/detach"
    ensures request.body == Some(DetachPrefix + instanceId + DetachSuffix)
    ensures request.headers == BuildHeaders(token)
  {
    Request(HttpPut, Host + "/aws/ec2/instance/detach", BuildHeaders(token), map[], Some(DetachBody(instanceId)))
  }

  /** The GCP detach call: a PUT of the same body, to the detach path of the instance's group. */
  function GcpDetachRequest(token: string, groupId: string, instanceName: string): (request: Request)
    ensures request.verb == HttpPut && request.query == map[]
    ensures request.url == Host + "/gcp/gce/group/" + groupId + "/detachInstances"
    ensures request.body == Some(DetachPrefix + instanceName + DetachSuffix)
    ensures request.headers == BuildHeaders(token)
  {
    Request(HttpPut, Host + "/gcp/gce/group/" + groupId + "/detachInstances", BuildHeaders(token), map[], Some(DetachBody(instanceName)))
  }

  // ---------------------------------------------------------------------------
  // Reply classification
  // ---------------------------------------------------------------------------

  /** Token validation (identical for both clouds): 0 valid, 1 unauthorized, 2 anything else. */
  function ValidateToken(reply: Transport<Unit>): (code: int)
    ensures code in {TokenValid, TokenUnauthorized, TokenError}
    ensures code == TokenValid <==> reply.Response? && reply.status == StatusOk
    ensures code == TokenUnauthorized <==> reply.Response? && reply.status == StatusUnauthorized
  {
    match reply
    case Exception => TokenError
    case Response(status, _, _) =>
      if status == StatusOk then TokenValid
      else if status == StatusUnauthorized then TokenUnauthorized
      else TokenError
  }

  /** Detach (both clouds) succeeds exactly on a 200 reply. */
  function DetachInstance(reply: Transport<Unit>): (detached: bool)
    ensures detached <==> reply.Response? && reply.status == StatusOk
  {
    match reply
    case Exception => false
    case Response(status, _, _) => status == StatusOk
  }

  /**
    The first item of a successful reply, or `None` (Java's null) on an
    exception, a non-200 status, a body that does not map, or an empty list.
    Used by the spot-request lookup and both scale-ups.
   */
  function FirstItem<T>(reply: Transport<T>): (first: Option<T>)
    ensures first.Some? <==> reply.Response? && reply.status == StatusOk && reply.parseOk && |reply.items| > 0
    ensures first.Some? ==> reply.Response? && first.value == reply.items[0]
  {
    match reply
    case Exception => None
    case Response(status, items, parseOk) =>
      if status == StatusOk && parseOk && |items| > 0 then Some(items[0]) else None
  }

  /**
    The instances of a group (both clouds): `None` unless the reply is a 200;
    on a 200 the list is allocated before the body is mapped, so a body that
    does not map yields an empty list rather than `None`.
   */
  method ElastigroupInstances<T>(reply: Transport<T>) returns (instances: Option<seq<T>>)
    ensures instances.None? <==> !(reply.Response? && reply.status == StatusOk)
    ensures instances.Some? ==> reply.Response? && instances.value == (if reply.parseOk then reply.items else [])
  {
    instances := None;
    if reply.Response? && reply.status == StatusOk {
      var list: seq<T> := [];
      if reply.parseOk {
        var i := 0;
        while i < |reply.items|
          invariant 0 <= i <= |reply.items|
          invariant list == reply.items[..i]
        {
          list := list + [reply.items[i]];
          i := i + 1;
        }
      }
      instances := Some(list);
    }
  }
}

=== FILE: monitor.dfy ===
/**
  The periodic reconciliation tick of the Spotinst plugin
  (`SpotinstInstancesMonitor.execute`) as a pure state transition.

  One tick first walks a snapshot of the waiting table group by group: a spot
  request older than the timeout is dropped; a younger one is looked up at the
  provider, and once it is bound to an instance whose placeholder node (named
  after the request) exists, the node is renamed to the instance id and the
  request moves to the initiating table. An exception while handling a group
  ends that group only. Then every initiating entry older than the timeout is
  dropped.

  Time is in whole minutes. The provider's replies are a parameter (one
  transport reply per spot request id), and so is the order in which the
  Java hash maps hand out their keys.
 */
module Monitor {
  import opened Wrappers
  import opened Context
  import opened Gateway

  /** Minutes a request may stay waiting, or initiating, before it is dropped. */
  const TIMEOUT := 10

  /** A Jenkins node as the monitor sees it; the node registry maps a node's name to it. */
  datatype Node = Node(name: string, instanceId: Option<string>, elastigroupId: string)

  type Nodes = map<string, Node>

  datatype State = State(waiting: Table, initiating: Table, nodes: Nodes)

  /**
    The end of handling one request or one group. `Aborted` is an exception
    that escaped after the effects recorded in `state` had been made.
   */
  datatype Outcome = Completed(state: State) | Aborted(state: State)

  /** One waiting group as the iteration visits it: its id and its request ids in order. */
  datatype GroupVisit = GroupVisit(groupId: string, requestIds: seq<string>)

  /** The state after the waiting pass, and the groups whose handling threw. */
  datatype PassResult = PassResult(state: State, aborted: set<string>)

  /** The provider's reply to the spot-request lookup of each request id. */
  type Replies = string -> Transport<SpotRequest>

  // ---------------------------------------------------------------------------
  // Time
  // ---------------------------------------------------------------------------

  /** `now` is strictly after `from` plus `minutes`. */
  function IsTimePassed(from: int, minutes: int, now: int): bool {
    now > from + minutes
  }

  /** The timeout is strict at its boundary and, once passed, stays passed. */
  lemma TimeoutBoundary(from: int, minutes: int, now: int, later: int)
    ensures !IsTimePassed(from, minutes, from + minutes)
    ensures IsTimePassed(from, minutes, from + minutes + 1)
    ensures now <= later && IsTimePassed(from, minutes, now) ==> IsTimePassed(from, minutes, later)
  {
  }

  predicate Stuck(entry: ContextInstance, now: int) {
    IsTimePassed(entry.createdAt, TIMEOUT, now)
  }

  // ---------------------------------------------------------------------------
  // Frame predicates shared by the steps of a tick
  // ---------------------------------------------------------------------------

  /** Nothing is added to, or changed in, the waiting table. */
  ghost predicate WaitingShrinks(before: Table, after: Table) {
    forall g, k :: Lookup(after, g, k).Some? ==> Lookup(after, g, k) == Lookup(before, g, k)
  }

  /** No initiating entry is lost, and every changed or new one was created at `now`. */
  ghost predicate InitiatingGrowsFresh(before: Table, after: Table, now: int) {
    && (forall g, k :: Lookup(before, g, k).Some? ==> Lookup(after, g, k).Some?)
    && (forall g, k :: Lookup(after, g, k).Some? ==>
          Lookup(after, g, k) == Lookup(before, g, k) || Lookup(after, g, k).value.createdAt == now)
  }

  predicate Distinct(ids: seq<string>) {
    forall i, j :: 0 <= i < j < |ids| ==> ids[i] != ids[j]
  }

  /** `order` visits every group of `t` once, and every request id of each group once. */
  ghost predicate Enumerates(t: Table, order: seq<GroupVisit>) {
    && (forall i, j :: 0 <= i < j < |order| ==> order[i].groupId != order[j].groupId)
    && (forall j :: 0 <= j < |order| ==>
          && order[j].groupId in t
          && Distinct(order[j].requestIds)
          && (forall k :: k in order[j].requestIds <==> k in t[order[j].groupId]))
    && (forall g :: g in t ==> exists j :: 0 <= j < |order| && order[j].groupId == g)
  }

  /** No spot request id waits in two groups. */
  ghost predicate RequestsInOneGroup(t: Table) {
    forall g1, g2, k :: Lookup(t, g1, k).Some? && Lookup(t, g2, k).Some? ==> g1 == g2
  }

  /** Every placeholder node of a waiting request belongs to that request's group. */
  ghost predicate NodesInOwnGroups(t: Table, nodes: Nodes) {
    forall g, k :: Lookup(t, g, k).Some? && k in nodes ==> nodes[k].elastigroupId == g
  }

  /**
    The provider bound distinct waiting requests to distinct instances, and no
    instance id is also the id of a waiting request.
   */
  ghost predicate FreshInstanceIds(t: Table, replies: Replies) {
    && (forall g1, k1, g2, k2 ::
          (Lookup(t, g1, k1).Some? && Lookup(t, g2, k2).Some? && k1 != k2 && ResolvedInstanceId(replies(k1)).Some?) ==>
          ResolvedInstanceId(replies(k1)) != ResolvedInstanceId(replies(k2)))
    && (forall g1, k1, g2 :: Lookup(t, g1, k1).Some? && ResolvedInstanceId(replies(k1)).Some? ==>
          Lookup(t, g2, ResolvedInstanceId(replies(k1)).value).None?)
  }

  /** No waiting request of `t` is named `n` or was bound to an instance named `n`. */
  ghost predicate NotTracked(t: Table, replies: Replies, n: string) {
    forall g, k :: Lookup(t, g, k).Some? ==> k != n && ResolvedInstanceId(replies(k)) != Some(n)
  }

  // ---------------------------------------------------------------------------
  // One waiting request
  // ---------------------------------------------------------------------------

  /** The instance a spot-request reply has bound, if the lookup returned a request that has one. */
  function ResolvedInstanceId(reply: Transport<SpotRequest>): (instanceId: Option<string>)
    ensures instanceId.Some? <==>
      reply.Response? && reply.status == StatusOk && reply.parseOk && |reply.items| > 0 && reply.items[0].instanceId.Some?
    ensures instanceId.Some? ==> reply.Response? && instanceId == reply.items[0].instanceId
  {
    match FirstItem(reply)
    case None => None
    case Some(request) => request.instanceId
  }

  /**
    The node registry after the placeholder node is removed, renamed to the
    instance id, given that instance id, and added back under its new name
    (replacing any node of that name).
   */
  function RenameNode(nodes: Nodes, spotRequestId: string, instanceId: string): (nodes': Nodes)
    requires spotRequestId in nodes
    ensures instanceId in nodes'
    ensures nodes'[instanceId].name == instanceId && nodes'[instanceId].instanceId == Some(instanceId)
    ensures nodes'[instanceId].elastigroupId == nodes[spotRequestId].elastigroupId
    ensures spotRequestId != instanceId ==> spotRequestId !in nodes'
    ensures forall n :: n != spotRequestId && n != instanceId ==>
      (n in nodes' <==> n in nodes) && (n in nodes' ==> nodes'[n] == nodes[n])
  {
    var node := nodes[spotRequestId];
    (nodes - {spotRequestId})[instanceId := node.(name := instanceId, instanceId := Some(instanceId))]
  }

  /**
    `updateNodeName`: rename the node, then move the request from waiting to
    initiating in the group the node belongs to. The label is read from that
    group's waiting entry; when the entry is missing there the read throws,
    after the node was already renamed.
   */
  function UpdateNodeName(s: State, numOfExecutors: int, spotRequestId: string, instanceId: string, now: int): (o: Outcome)
    requires spotRequestId in s.nodes
    ensures o.state.nodes == RenameNode(s.nodes, spotRequestId, instanceId)
    ensures var groupId := s.nodes[spotRequestId].elastigroupId;
      match Lookup(s.waiting, groupId, spotRequestId)
      case None =>
        o.Aborted? && o.state.waiting == s.waiting && o.state.initiating == s.initiating
      case Some(waitingEntry) =>
        && o.Completed?
        && Lookup(o.state.waiting, groupId, spotRequestId).None?
        && AgreeExcept(s.waiting, o.state.waiting, groupId, spotRequestId)
        && Lookup(o.state.initiating, groupId, instanceId) == Some(ContextInstance(numOfExecutors, waitingEntry.nodeLabel, now))
        && AgreeExcept(s.initiating, o.state.initiating, groupId, instanceId)
  {
    var nodes' := RenameNode(s.nodes, spotRequestId, instanceId);
    var groupId := s.nodes[spotRequestId].elastigroupId;
    match Lookup(s.waiting, groupId, spotRequestId)
    case None => Aborted(s.(nodes := nodes'))
    case Some(waitingEntry) =>
      var initiating := ContextInstance(numOfExecutors, waitingEntry.nodeLabel, now);
      Completed(State(Remove(s.waiting, groupId, spotRequestId),
                      Put(s.initiating, groupId, instanceId, initiating),
                      nodes'))
  }

  /**
    `handleSpotRequest` for the waiting entry `entry` of `spotRequestId` in
    group `groupId`.
   */
  function HandleSpotRequest(s: State, groupId: string, spotRequestId: string, entry: ContextInstance,
                             now: int, replies: Replies): (o: Outcome)
    // a stuck request is dropped, and nothing else is touched
    ensures Stuck(entry, now) ==>
      && o.Completed?
      && Lookup(o.state.waiting, groupId, spotRequestId).None?
      && AgreeExcept(s.waiting, o.state.waiting, groupId, spotRequestId)
      && o.state.initiating == s.initiating && o.state.nodes == s.nodes
    // not bound yet (or the lookup failed), or no placeholder node: nothing changes
    ensures !Stuck(entry, now) && (ResolvedInstanceId(replies(spotRequestId)).None? || spotRequestId !in s.nodes) ==>
      o == Completed(s)
    // bound, with its placeholder node in the same group: the request moves to initiating
    ensures !Stuck(entry, now) && ResolvedInstanceId(replies(spotRequestId)).Some? && spotRequestId in s.nodes
            && s.nodes[spotRequestId].elastigroupId == groupId && Lookup(s.waiting, groupId, spotRequestId) == Some(entry) ==>
      var instanceId := ResolvedInstanceId(replies(spotRequestId)).value;
      && o.Completed?
      && instanceId in o.state.nodes
      && o.state.nodes[instanceId].name == instanceId
      && o.state.nodes[instanceId].instanceId == Some(instanceId)
      && Lookup(o.state.waiting, groupId, spotRequestId).None?
      && Lookup(o.state.initiating, groupId, instanceId) == Some(ContextInstance(entry.numOfExecutors, entry.nodeLabel, now))
    // bound, with a placeholder node in any group: exactly updateNodeName
    ensures !Stuck(entry, now) && ResolvedInstanceId(replies(spotRequestId)).Some? && spotRequestId in s.nodes ==>
      o == UpdateNodeName(s, entry.numOfExecutors, spotRequestId, ResolvedInstanceId(replies(spotRequestId)).value, now)
    // what the tick needs: a waiting entry leaves only when it is this one and stuck, or its id is bound
    ensures WaitingShrinks(s.waiting, o.state.waiting)
    ensures forall g, k :: Lookup(s.waiting, g, k).Some? && Lookup(o.state.waiting, g, k).None? ==>
      k == spotRequestId && ((g == groupId && Stuck(entry, now)) || ResolvedInstanceId(replies(k)).Some?)
    ensures InitiatingGrowsFresh(s.initiating, o.state.initiating, now)
    ensures forall g, x :: ResolvedInstanceId(replies(spotRequestId)) != Some(x) ==>
      Lookup(o.state.initiating, g, x) == Lookup(s.initiating, g, x)
    // the registry changes only by renaming this request's node
    ensures o.state.nodes == s.nodes
         || (spotRequestId in s.nodes && ResolvedInstanceId(replies(spotRequestId)).Some?
             && o.state.nodes == RenameNode(s.nodes, spotRequestId, ResolvedInstanceId(replies(spotRequestId)).value))
  {
    if Stuck(entry, now) then
      Completed(s.(waiting := Remove(s.waiting, groupId, spotRequestId)))
    else
      match ResolvedInstanceId(replies(spotRequestId))
      case None => Completed(s)
      case Some(instanceId) =>
        if spotRequestId in s.nodes then UpdateNodeName(s, entry.numOfExecutors, spotRequestId, instanceId, now)
        else Completed(s)
  }

  /** A stuck request is dropped without asking the provider: the replies do not matter. */
  lemma StuckRequestSkipsLookup(s: State, groupId: string, spotRequestId: string, entry: ContextInstance,
                                now: int, replies1: Replies, replies2: Replies)
    requires Stuck(entry, now)
    ensures HandleSpotRequest(s, groupId, spotRequestId, entry, now, replies1)
         == HandleSpotRequest(s, groupId, spotRequestId, entry, now, replies2)
  {
  }

  // ---------------------------------------------------------------------------
  // The waiting pass
  // ---------------------------------------------------------------------------

  /**
    `handleGroup`: the requests of one group, in iteration order, each with its
    entry from the snapshot; an exception ends the group.
   */
  function HandleGroup(s: State, groupId: string, snapshot: map<string, ContextInstance>, ids: seq<string>,
                       now: int, replies: Replies): (o: Outcome)
    requires forall k :: k in ids ==> k in snapshot
    ensures WaitingShrinks(s.waiting, o.state.waiting)
    ensures InitiatingGrowsFresh(s.initiating, o.state.initiating, now)
    ensures forall g, k :: Lookup(s.waiting, g, k).Some? && Lookup(o.state.waiting, g, k).None? ==>
      k in ids && ((g == groupId && Stuck(snapshot[k], now)) || ResolvedInstanceId(replies(k)).Some?)
    ensures o.Completed? ==>
      forall k :: k in ids && Stuck(snapshot[k], now) ==> Lookup(o.state.waiting, groupId, k).None?
    // the one exception modelled, the label read in `updateNodeName`, comes after a young
    // request was found bound; registry failures and the node cast are not modelled
    ensures o.Aborted? ==>
      exists k :: k in ids && !Stuck(snapshot[k], now) && ResolvedInstanceId(replies(k)).Some?
    decreases |ids|
  {
    if |ids| == 0 then Completed(s)
    else
      match HandleSpotRequest(s, groupId, ids[0], snapshot[ids[0]], now, replies)
      case Aborted(s1) =>
        assert ids[0] in ids;
        Aborted(s1)
      case Completed(s1) =>
        var o := HandleGroup(s1, groupId, snapshot, ids[1..], now, replies);
        assert forall k :: k in ids[1..] ==> k in ids;
        o
  }

  /** Handling a group changes initiating entries only under instance ids its requests resolved to. */
  lemma {:induction false} HandleGroupInitiatingFrame(s: State, groupId: string, snapshot: map<string, ContextInstance>,
                                                      ids: seq<string>, now: int, replies: Replies, g: string, x: string)
    requires forall k :: k in ids ==> k in snapshot
    requires forall k :: k in ids ==> ResolvedInstanceId(replies(k)) != Some(x)
    ensures Lookup(HandleGroup(s, groupId, snapshot, ids, now, replies).state.initiating, g, x) == Lookup(s.initiating, g, x)
    decreases |ids|
  {
    if |ids| > 0 {
      assert ids[0] in ids;
      var o1 := HandleSpotRequest(s, groupId, ids[0], snapshot[ids[0]], now, replies);
      if o1.Completed? {
        assert forall k :: k in ids[1..] ==> k in ids;
        HandleGroupInitiatingFrame(o1.state, groupId, snapshot, ids[1..], now, replies, g, x);
      }
    }
  }

  /**
    Handling a group changes the node registry only at its request ids and the
    instance ids they resolved to.
   */
  lemma {:induction false} HandleGroupNodesFrame(s: State, groupId: string, snapshot: map<string, ContextInstance>,
                                                 ids: seq<string>, now: int, replies: Replies, n: string)
    requires forall k :: k in ids ==> k in snapshot
    requires n !in ids && forall k :: k in ids ==> ResolvedInstanceId(replies(k)) != Some(n)
    ensures var nodes' := HandleGroup(s, groupId, snapshot, ids, now, replies).state.nodes;
      (n in nodes' <==> n in s.nodes) && (n in nodes' ==> nodes'[n] == s.nodes[n])
    decreases |ids|
  {
    if |ids| > 0 {
      assert ids[0] in ids;
      var o1 := HandleSpotRequest(s, groupId, ids[0], snapshot[ids[0]], now, replies);
      if o1.state.nodes != s.nodes {
        assert o1.state.nodes == RenameNode(s.nodes, ids[0], ResolvedInstanceId(replies(ids[0])).value);
      }
      if o1.Completed? {
        assert forall k :: k in ids[1..] ==> k in ids;
        HandleGroupNodesFrame(o1.state, groupId, snapshot, ids[1..], now, replies, n);
      }
    }
  }

  /**
    Promotion for a whole group: when the group's requests are all still
    waiting with their snapshot entries, every placeholder node found belongs
    to this group, and no two bound requests share an instance id, the group
    completes and every young, bound request with a placeholder node has moved
    from waiting to initiating under its instance id, stamped `now`.
   */
  lemma {:induction false} HandleGroupPromotes(s: State, groupId: string, snapshot: map<string, ContextInstance>,
                                               ids: seq<string>, now: int, replies: Replies)
    requires forall k :: k in ids ==> k in snapshot
    requires Distinct(ids)
    requires forall k :: k in ids ==> Lookup(s.waiting, groupId, k) == Some(snapshot[k])
    requires forall k :: k in ids && k in s.nodes ==> s.nodes[k].elastigroupId == groupId
    requires forall i, j :: 0 <= i < j < |ids| && ResolvedInstanceId(replies(ids[i])).Some? ==>
      ResolvedInstanceId(replies(ids[i])) != ResolvedInstanceId(replies(ids[j]))
    ensures HandleGroup(s, groupId, snapshot, ids, now, replies).Completed?
    ensures forall k :: k in ids && k in s.nodes && !Stuck(snapshot[k], now) && ResolvedInstanceId(replies(k)).Some? ==>
      var o := HandleGroup(s, groupId, snapshot, ids, now, replies);
      && Lookup(o.state.waiting, groupId, k).None?
      && Lookup(o.state.initiating, groupId, ResolvedInstanceId(replies(k)).value)
         == Some(ContextInstance(snapshot[k].numOfExecutors, snapshot[k].nodeLabel, now))
    decreases |ids|
  {
    if |ids| > 0 {
      var k0, rest := ids[0], ids[1..];
      TailOfDistinct(ids, replies);
      var s1 := PromoteHead(s, groupId, snapshot[k0], k0, rest, now, replies);
      HandleGroupPromotes(s1, groupId, snapshot, rest, now, replies);
      var o := HandleGroup(s1, groupId, snapshot, rest, now, replies);
      assert HandleGroup(s, groupId, snapshot, ids, now, replies) == o;
      if !Stuck(snapshot[k0], now) && k0 in s.nodes && ResolvedInstanceId(replies(k0)).Some? {
        assert Lookup(o.state.waiting, groupId, k0).Some? ==> Lookup(s1.waiting, groupId, k0).Some?;
        HandleGroupInitiatingFrame(s1, groupId, snapshot, rest, now, replies, groupId, ResolvedInstanceId(replies(k0)).value);
      }
    }
  }

  /** The tail of a sequence of distinct request ids, and the instance ids its requests resolve to. */
  /**
    Under the premises of `HandleGroupPromotes`, and when no bound instance id
    is itself a request id of the group, a young, bound request with a
    placeholder node leaves the group's handling with its node renamed: the
    registry holds a node named after the instance, carrying that instance id
    and this group.
   */
  lemma {:induction false} HandleGroupRenamesOne(s: State, groupId: string, snapshot: map<string, ContextInstance>,
                                                 ids: seq<string>, now: int, replies: Replies, k: string)
    requires forall k' :: k' in ids ==> k' in snapshot
    requires Distinct(ids)
    requires forall k' :: k' in ids ==> Lookup(s.waiting, groupId, k') == Some(snapshot[k'])
    requires forall k' :: k' in ids && k' in s.nodes ==> s.nodes[k'].elastigroupId == groupId
    requires forall i, j :: 0 <= i < j < |ids| && ResolvedInstanceId(replies(ids[i])).Some? ==>
      ResolvedInstanceId(replies(ids[i])) != ResolvedInstanceId(replies(ids[j]))
    requires forall k' :: k' in ids && ResolvedInstanceId(replies(k')).Some? ==> ResolvedInstanceId(replies(k')).value !in ids
    requires k in ids && k in s.nodes && !Stuck(snapshot[k], now) && ResolvedInstanceId(replies(k)).Some?
    ensures var nodes' := HandleGroup(s, groupId, snapshot, ids, now, replies).state.nodes;
      var x := ResolvedInstanceId(replies(k)).value;
      && x in nodes'
      && nodes'[x].name == x && nodes'[x].instanceId == Some(x) && nodes'[x].elastigroupId == groupId
    decreases |ids|
  {
    var k0, rest := ids[0], ids[1..];
    TailOfDistinct(ids, replies);
    var s1 := PromoteHead(s, groupId, snapshot[k0], k0, rest, now, replies);
    assert HandleGroup(s, groupId, snapshot, ids, now, replies) == HandleGroup(s1, groupId, snapshot, rest, now, replies);
    var x := ResolvedInstanceId(replies(k)).value;
    if k0 == k {
      assert s1.nodes == RenameNode(s.nodes, k, x);
      assert x !in rest;
      HandleGroupNodesFrame(s1, groupId, snapshot, rest, now, replies, x);
    } else {
      assert k in rest;
      HandleGroupRenamesOne(s1, groupId, snapshot, rest, now, replies, k);
    }
  }

  lemma TailOfDistinct(ids: seq<string>, replies: Replies)
    requires |ids| > 0 && Distinct(ids)
    requires forall i, j :: 0 <= i < j < |ids| && ResolvedInstanceId(replies(ids[i])).Some? ==>
      ResolvedInstanceId(replies(ids[i])) != ResolvedInstanceId(replies(ids[j]))
    ensures Distinct(ids[1..])
    ensures forall k :: k in ids[1..] ==> k in ids && k != ids[0]
    ensures forall k :: k in ids[1..] && ResolvedInstanceId(replies(ids[0])).Some? ==>
      ResolvedInstanceId(replies(k)) != ResolvedInstanceId(replies(ids[0]))
    ensures forall i, j :: 0 <= i < j < |ids[1..]| && ResolvedInstanceId(replies(ids[1..][i])).Some? ==>
      ResolvedInstanceId(replies(ids[1..][i])) != ResolvedInstanceId(replies(ids[1..][j]))
  {
    forall k | k in ids[1..]
      ensures k in ids && k != ids[0]
      ensures ResolvedInstanceId(replies(ids[0])).Some? ==> ResolvedInstanceId(replies(k)) != ResolvedInstanceId(replies(ids[0]))
    {
      var j :| 0 <= j < |ids[1..]| && ids[1..][j] == k;
      assert ids[j + 1] == k;
    }
  }

  /**
    The first step of `HandleGroupPromotes`: the head request completes,
    promoting itself if it is young, bound and has its node, and the tail
    still meets the lemma's hypotheses.
   */
  lemma PromoteHead(s: State, groupId: string, entry: ContextInstance, k0: string, rest: seq<string>,
                    now: int, replies: Replies) returns (s1: State)
    requires Lookup(s.waiting, groupId, k0) == Some(entry)
    requires k0 in s.nodes ==> s.nodes[k0].elastigroupId == groupId
    requires forall k :: k in rest ==> k != k0 && Lookup(s.waiting, groupId, k).Some?
    requires forall k :: k in rest && k in s.nodes ==> s.nodes[k].elastigroupId == groupId
    ensures HandleSpotRequest(s, groupId, k0, entry, now, replies) == Completed(s1)
    ensures forall k :: k in rest ==> Lookup(s1.waiting, groupId, k) == Lookup(s.waiting, groupId, k)
    ensures forall k :: k in rest && k in s1.nodes ==> s1.nodes[k].elastigroupId == groupId
    ensures forall k :: k in rest && k in s.nodes ==> k in s1.nodes
    ensures !Stuck(entry, now) && k0 in s.nodes && ResolvedInstanceId(replies(k0)).Some? ==>
      && Lookup(s1.waiting, groupId, k0).None?
      && Lookup(s1.initiating, groupId, ResolvedInstanceId(replies(k0)).value)
         == Some(ContextInstance(entry.numOfExecutors, entry.nodeLabel, now))
  {
    var o1 := HandleSpotRequest(s, groupId, k0, entry, now, replies);
    s1 := o1.state;
    forall k | k in rest ensures Lookup(s1.waiting, groupId, k) == Lookup(s.waiting, groupId, k) {
      assert Lookup(s1.waiting, groupId, k).Some?;
    }
    if s1.nodes != s.nodes {
      assert s1.nodes == RenameNode(s.nodes, k0, ResolvedInstanceId(replies(k0)).value);
    }
  }

  /**
    The loop of `execute` over the waiting groups: every group is handled,
    a group whose handling threw is recorded and the loop goes on.
   */
  function WaitingPass(s: State, snapshot: Table, order: seq<GroupVisit>, now: int, replies: Replies): (r: PassResult)
    requires forall j, k :: 0 <= j < |order| && k in order[j].requestIds ==> k in Entries(snapshot, order[j].groupId)
    ensures WaitingShrinks(s.waiting, r.state.waiting)
    ensures InitiatingGrowsFresh(s.initiating, r.state.initiating, now)
    ensures forall g, k :: Lookup(s.waiting, g, k).Some? && Lookup(r.state.waiting, g, k).None? ==>
      (Lookup(snapshot, g, k).Some? && Stuck(Lookup(snapshot, g, k).value, now)) || ResolvedInstanceId(replies(k)).Some?
    ensures forall j, k :: 0 <= j < |order| && k in order[j].requestIds && order[j].groupId !in r.aborted
                           && Stuck(Entries(snapshot, order[j].groupId)[k], now) ==>
      Lookup(r.state.waiting, order[j].groupId, k).None?
    ensures forall g :: g in r.aborted ==>
      exists j, k :: 0 <= j < |order| && order[j].groupId == g && k in order[j].requestIds
                     && !Stuck(Entries(snapshot, g)[k], now) && ResolvedInstanceId(replies(k)).Some?
    decreases |order|
  {
    if |order| == 0 then PassResult(s, {})
    else
      var visit := order[0];
      var o := HandleGroup(s, visit.groupId, Entries(snapshot, visit.groupId), visit.requestIds, now, replies);
      var rest := WaitingPass(o.state, snapshot, order[1..], now, replies);
      assert forall j :: 1 <= j < |order| ==> order[j] == order[1..][j - 1];
      if o.Aborted? then rest.(aborted := rest.aborted + {visit.groupId}) else rest
  }

  /** The waiting pass changes initiating entries only under instance ids its requests resolved to. */
  lemma {:induction false} WaitingPassInitiatingFrame(s: State, snapshot: Table, order: seq<GroupVisit>, now: int,
                                                      replies: Replies, g: string, x: string)
    requires forall j, k :: 0 <= j < |order| && k in order[j].requestIds ==> k in Entries(snapshot, order[j].groupId)
    requires forall j, k :: 0 <= j < |order| && k in order[j].requestIds ==> ResolvedInstanceId(replies(k)) != Some(x)
    ensures Lookup(WaitingPass(s, snapshot, order, now, replies).state.initiating, g, x) == Lookup(s.initiating, g, x)
    decreases |order|
  {
    if |order| > 0 {
      var visit := order[0];
      HandleGroupInitiatingFrame(s, visit.groupId, Entries(snapshot, visit.groupId), visit.requestIds, now, replies, g, x);
      var o := HandleGroup(s, visit.groupId, Entries(snapshot, visit.groupId), visit.requestIds, now, replies);
      assert forall j :: 1 <= j < |order| ==> order[j] == order[1..][j - 1];
      WaitingPassInitiatingFrame(o.state, snapshot, order[1..], now, replies, g, x);
    }
  }

  /** A pass over a non-empty order is the first group's handling followed by the pass over the rest. */
  lemma PassUnfold(s: State, snapshot: Table, order: seq<GroupVisit>, now: int, replies: Replies, s1: State)
    requires |order| > 0
    requires forall j, k :: 0 <= j < |order| && k in order[j].requestIds ==> k in Entries(snapshot, order[j].groupId)
    requires s1 == HandleGroup(s, order[0].groupId, Entries(snapshot, order[0].groupId), order[0].requestIds, now, replies).state
    ensures forall j, k :: 0 <= j < |order[1..]| && k in order[1..][j].requestIds ==> k in Entries(snapshot, order[1..][j].groupId)
    ensures WaitingPass(s, snapshot, order, now, replies).state == WaitingPass(s1, snapshot, order[1..], now, replies).state
  {
    assert forall j :: 1 <= j < |order| ==> order[j] == order[1..][j - 1];
  }

  /** The waiting pass leaves alone every node that no visited request is named after or bound to. */
  lemma {:induction false} WaitingPassNodesFrame(s: State, snapshot: Table, order: seq<GroupVisit>, now: int,
                                                 replies: Replies, n: string)
    requires forall j, k :: 0 <= j < |order| && k in order[j].requestIds ==> k in Entries(snapshot, order[j].groupId)
    requires forall j :: 0 <= j < |order| ==>
      n !in order[j].requestIds && forall k :: k in order[j].requestIds ==> ResolvedInstanceId(replies(k)) != Some(n)
    ensures var nodes' := WaitingPass(s, snapshot, order, now, replies).state.nodes;
      (n in nodes' <==> n in s.nodes) && (n in nodes' ==> nodes'[n] == s.nodes[n])
    decreases |order|
  {
    if |order| > 0 {
      var visit := order[0];
      HandleGroupNodesFrame(s, visit.groupId, Entries(snapshot, visit.groupId), visit.requestIds, now, replies, n);
      var o := HandleGroup(s, visit.groupId, Entries(snapshot, visit.groupId), visit.requestIds, now, replies);
      PassUnfold(s, snapshot, order, now, replies, o.state);
      assert forall j :: 1 <= j < |order| ==> order[j] == order[1..][j - 1];
      WaitingPassNodesFrame(o.state, snapshot, order[1..], now, replies, n);
    }
  }

  /** A request waiting in one group does not wait in another. */
  lemma OtherGroupApart(t: Table, g1: string, g2: string, k: string)
    requires RequestsInOneGroup(t) && g1 != g2 && Lookup(t, g2, k).Some?
    ensures Lookup(t, g1, k).None?
  {
  }

  /** No waiting request's instance id is the id of another waiting request. */
  lemma InstanceNotARequest(t: Table, replies: Replies, g1: string, k1: string, g2: string, k2: string)
    requires FreshInstanceIds(t, replies) && Lookup(t, g1, k1).Some? && Lookup(t, g2, k2).Some?
    ensures ResolvedInstanceId(replies(k1)) != Some(k2)
  {
    if ResolvedInstanceId(replies(k1)).Some? {
      assert Lookup(t, g2, ResolvedInstanceId(replies(k1)).value).None?;
    }
  }

  /** Two distinct waiting requests that are bound are bound to distinct instances. */
  lemma InstancesApart(t: Table, replies: Replies, g1: string, k1: string, g2: string, k2: string)
    requires FreshInstanceIds(t, replies) && Lookup(t, g1, k1).Some? && Lookup(t, g2, k2).Some? && k1 != k2
    requires ResolvedInstanceId(replies(k1)).Some?
    ensures ResolvedInstanceId(replies(k1)) != ResolvedInstanceId(replies(k2))
  {
  }

  /** Within one visit, distinct bound requests are bound to distinct instances. */
  lemma GroupInstancesApart(t: Table, replies: Replies, g: string, ids: seq<string>)
    requires FreshInstanceIds(t, replies) && Distinct(ids)
    requires forall k :: k in ids ==> Lookup(t, g, k).Some?
    ensures forall i, j :: 0 <= i < j < |ids| && ResolvedInstanceId(replies(ids[i])).Some? ==>
      ResolvedInstanceId(replies(ids[i])) != ResolvedInstanceId(replies(ids[j]))
  {
    forall i, j | 0 <= i < j < |ids| && ResolvedInstanceId(replies(ids[i])).Some?
      ensures ResolvedInstanceId(replies(ids[i])) != ResolvedInstanceId(replies(ids[j]))
    {
      InstancesApart(t, replies, g, ids[i], g, ids[j]);
    }
  }

  /** Within one visit, no bound instance id is also a request id of that visit. */
  lemma GroupInstancesFresh(t: Table, replies: Replies, g: string, ids: seq<string>)
    requires FreshInstanceIds(t, replies)
    requires forall k :: k in ids ==> Lookup(t, g, k).Some?
    ensures forall k :: k in ids && ResolvedInstanceId(replies(k)).Some? ==> ResolvedInstanceId(replies(k)).value !in ids
  {
    forall k, k' | k in ids && k' in ids ensures ResolvedInstanceId(replies(k)) != Some(k') {
      InstanceNotARequest(t, replies, g, k, g, k');
    }
  }

  /**
    A request of another group, none of whose requests resolved to its id,
    keeps its waiting entry and its placeholder node through the handling of
    a group.
   */
  lemma OtherRequestUntouched(s: State, groupId: string, snapshot: map<string, ContextInstance>, ids: seq<string>,
                              now: int, replies: Replies, g: string, k: string)
    requires forall k' :: k' in ids ==> k' in snapshot
    requires k !in ids && forall k' :: k' in ids ==> ResolvedInstanceId(replies(k')) != Some(k)
    requires Lookup(s.waiting, g, k).Some?
    requires k in s.nodes ==> s.nodes[k].elastigroupId == g
    ensures var s1 := HandleGroup(s, groupId, snapshot, ids, now, replies).state;
      && Lookup(s1.waiting, g, k) == Lookup(s.waiting, g, k)
      && (k in s1.nodes <==> k in s.nodes)
      && (k in s1.nodes ==> s1.nodes[k].elastigroupId == g)
  {
    var s1 := HandleGroup(s, groupId, snapshot, ids, now, replies).state;
    assert Lookup(s1.waiting, g, k).Some?;
    HandleGroupNodesFrame(s, groupId, snapshot, ids, now, replies, k);
  }

  /**
    The hypotheses of `WaitingPassPromotes` that speak of the state hold for
    the visits after the first once the first group has been handled, and no
    placeholder node of a later visit is lost.
   */
  lemma LaterVisitsUntouched(s: State, snapshot: Table, order: seq<GroupVisit>, now: int, replies: Replies, s1: State)
    requires |order| > 0
    requires forall j, k :: 0 <= j < |order| && k in order[j].requestIds ==> Lookup(snapshot, order[j].groupId, k).Some?
    requires forall i, j :: 0 <= i < j < |order| ==> order[i].groupId != order[j].groupId
    requires RequestsInOneGroup(snapshot) && FreshInstanceIds(snapshot, replies)
    requires forall j, k :: 0 <= j < |order| && k in order[j].requestIds ==>
      Lookup(s.waiting, order[j].groupId, k) == Lookup(snapshot, order[j].groupId, k)
    requires forall j, k :: 0 <= j < |order| && k in order[j].requestIds && k in s.nodes ==>
      s.nodes[k].elastigroupId == order[j].groupId
    requires s1 == HandleGroup(s, order[0].groupId, Entries(snapshot, order[0].groupId), order[0].requestIds, now, replies).state
    ensures forall j, k :: 1 <= j < |order| && k in order[j].requestIds ==>
      && k !in order[0].requestIds
      && Lookup(s1.waiting, order[j].groupId, k) == Lookup(snapshot, order[j].groupId, k)
      && (k in s1.nodes <==> k in s.nodes)
      && (k in s1.nodes ==> s1.nodes[k].elastigroupId == order[j].groupId)
  {
    var g0, ids0 := order[0].groupId, order[0].requestIds;
    forall j, k | 1 <= j < |order| && k in order[j].requestIds
      ensures k !in ids0
      ensures && Lookup(s1.waiting, order[j].groupId, k) == Lookup(snapshot, order[j].groupId, k)
        && (k in s1.nodes <==> k in s.nodes)
        && (k in s1.nodes ==> s1.nodes[k].elastigroupId == order[j].groupId)
    {
      var gj := order[j].groupId;
      OtherGroupApart(snapshot, g0, gj, k);
      forall k' | k' in ids0 ensures ResolvedInstanceId(replies(k')) != Some(k) {
        InstanceNotARequest(snapshot, replies, g0, k', gj, k);
      }
      OtherRequestUntouched(s, g0, Entries(snapshot, g0), ids0, now, replies, gj, k);
    }
  }

  /**
    A request the first visit promoted stays promoted through the later
    visits: they belong to other groups and bind other instances.
   */
  lemma FirstVisitKept(s1: State, snapshot: Table, later: seq<GroupVisit>, now: int, replies: Replies,
                       g0: string, k: string, v: ContextInstance)
    requires forall j, k' :: 0 <= j < |later| && k' in later[j].requestIds ==> Lookup(snapshot, later[j].groupId, k').Some?
    requires forall j :: 0 <= j < |later| ==> later[j].groupId != g0
    requires RequestsInOneGroup(snapshot) && FreshInstanceIds(snapshot, replies)
    requires Lookup(snapshot, g0, k).Some? && ResolvedInstanceId(replies(k)).Some?
    requires Lookup(s1.waiting, g0, k).None?
    requires Lookup(s1.initiating, g0, ResolvedInstanceId(replies(k)).value) == Some(v)
    ensures var r := WaitingPass(s1, snapshot, later, now, replies);
      && Lookup(r.state.waiting, g0, k).None?
      && Lookup(r.state.initiating, g0, ResolvedInstanceId(replies(k)).value) == Some(v)
  {
    var x := ResolvedInstanceId(replies(k)).value;
    forall j, k' | 0 <= j < |later| && k' in later[j].requestIds
      ensures ResolvedInstanceId(replies(k')) != Some(x)
    {
      OtherGroupApart(snapshot, g0, later[j].groupId, k');
      InstancesApart(snapshot, replies, g0, k, later[j].groupId, k');
    }
    WaitingPassInitiatingFrame(s1, snapshot, later, now, replies, g0, x);
  }

  /**
    The hypotheses under which a waiting pass promotes: every visited request
    is still waiting with its snapshot entry, its placeholder node (if any)
    belongs to its group, groups are visited once and requests once per group.
   */
  ghost predicate PromotionPremises(s: State, snapshot: Table, order: seq<GroupVisit>, replies: Replies) {
    && (forall j, k :: 0 <= j < |order| && k in order[j].requestIds ==> Lookup(snapshot, order[j].groupId, k).Some?)
    && (forall i, j :: 0 <= i < j < |order| ==> order[i].groupId != order[j].groupId)
    && (forall j :: 0 <= j < |order| ==> Distinct(order[j].requestIds))
    && RequestsInOneGroup(snapshot) && FreshInstanceIds(snapshot, replies)
    && (forall j, k :: 0 <= j < |order| && k in order[j].requestIds ==>
          Lookup(s.waiting, order[j].groupId, k) == Lookup(snapshot, order[j].groupId, k))
    && (forall j, k :: 0 <= j < |order| && k in order[j].requestIds && k in s.nodes ==>
          s.nodes[k].elastigroupId == order[j].groupId)
  }

  /**
    A tick's own waiting table meets the premises when no request id waits in
    two groups, placeholder nodes sit in their request's group and the provider
    bound distinct requests to distinct, fresh instance ids.
   */
  lemma PremisesOfTick(s: State, order: seq<GroupVisit>, replies: Replies)
    requires Enumerates(s.waiting, order)
    requires RequestsInOneGroup(s.waiting) && NodesInOwnGroups(s.waiting, s.nodes) && FreshInstanceIds(s.waiting, replies)
    ensures PromotionPremises(s, s.waiting, order, replies)
  {
    forall j, k | 0 <= j < |order| && k in order[j].requestIds
      ensures Lookup(s.waiting, order[j].groupId, k).Some?
    {
    }
  }

  /** After the first visit, the premises hold for the remaining visits. */
  lemma PremisesAfterFirstVisit(s: State, snapshot: Table, order: seq<GroupVisit>, now: int, replies: Replies)
    requires |order| > 0 && PromotionPremises(s, snapshot, order, replies)
    ensures var g0 := order[0].groupId;
      PromotionPremises(HandleGroup(s, g0, Entries(snapshot, g0), order[0].requestIds, now, replies).state,
                        snapshot, order[1..], replies)
  {
    var g0 := order[0].groupId;
    var s1 := HandleGroup(s, g0, Entries(snapshot, g0), order[0].requestIds, now, replies).state;
    LaterVisitsUntouched(s, snapshot, order, now, replies, s1);
    assert forall j :: 1 <= j < |order| ==> order[j] == order[1..][j - 1];
  }

  /** Under the premises, no group of the pass throws. */
  lemma {:induction false} WaitingPassCompletes(s: State, snapshot: Table, order: seq<GroupVisit>, now: int, replies: Replies)
    requires PromotionPremises(s, snapshot, order, replies)
    ensures WaitingPass(s, snapshot, order, now, replies).aborted == {}
    decreases |order|
  {
    if |order| > 0 {
      var g0, ids0 := order[0].groupId, order[0].requestIds;
      GroupInstancesApart(snapshot, replies, g0, ids0);
      HandleGroupPromotes(s, g0, Entries(snapshot, g0), ids0, now, replies);
      PremisesAfterFirstVisit(s, snapshot, order, now, replies);
      var o := HandleGroup(s, g0, Entries(snapshot, g0), ids0, now, replies);
      WaitingPassCompletes(o.state, snapshot, order[1..], now, replies);
    }
  }

  /** A request of a later visit keeps its placeholder node through the first visit. */
  lemma LaterRequestKept(s: State, snapshot: Table, order: seq<GroupVisit>, now: int, replies: Replies, j: nat, k: string)
    requires PromotionPremises(s, snapshot, order, replies)
    requires 0 < j < |order| && k in order[j].requestIds
    ensures var g0 := order[0].groupId;
      var s1 := HandleGroup(s, g0, Entries(snapshot, g0), order[0].requestIds, now, replies).state;
      k in s1.nodes <==> k in s.nodes
  {
    var g0, gj, ids0 := order[0].groupId, order[j].groupId, order[0].requestIds;
    OtherGroupApart(snapshot, g0, gj, k);
    forall k' | k' in ids0 ensures ResolvedInstanceId(replies(k')) != Some(k) {
      InstanceNotARequest(snapshot, replies, g0, k', gj, k);
    }
    OtherRequestUntouched(s, g0, Entries(snapshot, g0), ids0, now, replies, gj, k);
  }

  /** A young, bound request of the first visit that has a placeholder node is promoted by the pass. */
  lemma FirstVisitPromotes(s: State, snapshot: Table, order: seq<GroupVisit>, now: int, replies: Replies, k: string)
    requires PromotionPremises(s, snapshot, order, replies)
    requires |order| > 0 && k in order[0].requestIds && k in s.nodes
    requires !Stuck(Lookup(snapshot, order[0].groupId, k).value, now) && ResolvedInstanceId(replies(k)).Some?
    ensures var r := WaitingPass(s, snapshot, order, now, replies);
      var entry := Lookup(snapshot, order[0].groupId, k).value;
      && Lookup(r.state.waiting, order[0].groupId, k).None?
      && Lookup(r.state.initiating, order[0].groupId, ResolvedInstanceId(replies(k)).value)
         == Some(ContextInstance(entry.numOfExecutors, entry.nodeLabel, now))
  {
    var g0, ids0 := order[0].groupId, order[0].requestIds;
    var o := HandleGroup(s, g0, Entries(snapshot, g0), ids0, now, replies);
    var later := order[1..];
    PassUnfold(s, snapshot, order, now, replies, o.state);
    GroupInstancesApart(snapshot, replies, g0, ids0);
    HandleGroupPromotes(s, g0, Entries(snapshot, g0), ids0, now, replies);
    forall j' | 0 <= j' < |later| ensures later[j'].groupId != g0 {
      assert order[j' + 1] == later[j'];
    }
    var entry := Lookup(snapshot, g0, k).value;
    FirstVisitKept(o.state, snapshot, later, now, replies, g0, k,
                   ContextInstance(entry.numOfExecutors, entry.nodeLabel, now));
  }

  /** Under the premises, one young, bound request with a placeholder node is promoted by the pass. */
  lemma {:induction false} WaitingPassPromotesOne(s: State, snapshot: Table, order: seq<GroupVisit>, now: int,
                                                  replies: Replies, j: nat, k: string)
    requires PromotionPremises(s, snapshot, order, replies)
    requires j < |order| && k in order[j].requestIds && k in s.nodes
    requires !Stuck(Lookup(snapshot, order[j].groupId, k).value, now) && ResolvedInstanceId(replies(k)).Some?
    ensures var r := WaitingPass(s, snapshot, order, now, replies);
      var entry := Lookup(snapshot, order[j].groupId, k).value;
      && Lookup(r.state.waiting, order[j].groupId, k).None?
      && Lookup(r.state.initiating, order[j].groupId, ResolvedInstanceId(replies(k)).value)
         == Some(ContextInstance(entry.numOfExecutors, entry.nodeLabel, now))
    decreases j
  {
    if j == 0 {
      FirstVisitPromotes(s, snapshot, order, now, replies, k);
    } else {
      var g0, ids0 := order[0].groupId, order[0].requestIds;
      var o := HandleGroup(s, g0, Entries(snapshot, g0), ids0, now, replies);
      var later := order[1..];
      PassUnfold(s, snapshot, order, now, replies, o.state);
      PremisesAfterFirstVisit(s, snapshot, order, now, replies);
      LaterRequestKept(s, snapshot, order, now, replies, j, k);
      assert order[j] == later[j - 1];
      WaitingPassPromotesOne(o.state, snapshot, later, now, replies, j - 1, k);
    }
  }

  /** A young, bound request of the first visit that has a placeholder node ends the pass with its node renamed. */
  lemma FirstVisitRenames(s: State, snapshot: Table, order: seq<GroupVisit>, now: int, replies: Replies, k: string)
    requires PromotionPremises(s, snapshot, order, replies)
    requires |order| > 0 && k in order[0].requestIds && k in s.nodes
    requires !Stuck(Lookup(snapshot, order[0].groupId, k).value, now) && ResolvedInstanceId(replies(k)).Some?
    ensures var nodes' := WaitingPass(s, snapshot, order, now, replies).state.nodes;
      var x := ResolvedInstanceId(replies(k)).value;
      && x in nodes'
      && nodes'[x].name == x && nodes'[x].instanceId == Some(x) && nodes'[x].elastigroupId == order[0].groupId
  {
    var g0, ids0 := order[0].groupId, order[0].requestIds;
    var o := HandleGroup(s, g0, Entries(snapshot, g0), ids0, now, replies);
    var later := order[1..];
    var x := ResolvedInstanceId(replies(k)).value;
    PassUnfold(s, snapshot, order, now, replies, o.state);
    GroupInstancesApart(snapshot, replies, g0, ids0);
    GroupInstancesFresh(snapshot, replies, g0, ids0);
    HandleGroupRenamesOne(s, g0, Entries(snapshot, g0), ids0, now, replies, k);
    forall j | 0 <= j < |later|
      ensures x !in later[j].requestIds && forall k' :: k' in later[j].requestIds ==> ResolvedInstanceId(replies(k')) != Some(x)
    {
      assert order[j + 1] == later[j];
      forall k' | k' in later[j].requestIds ensures k' != x && ResolvedInstanceId(replies(k')) != Some(x) {
        OtherGroupApart(snapshot, g0, later[j].groupId, k');
        InstanceNotARequest(snapshot, replies, g0, k, later[j].groupId, k');
        InstancesApart(snapshot, replies, g0, k, later[j].groupId, k');
      }
    }
    WaitingPassNodesFrame(o.state, snapshot, later, now, replies, x);
  }

  /**
    Under the premises, a young, bound request with a placeholder node ends
    the pass with its node renamed to its instance id, in its own group.
   */
  lemma {:induction false} WaitingPassRenamesOne(s: State, snapshot: Table, order: seq<GroupVisit>, now: int,
                                                 replies: Replies, j: nat, k: string)
    requires PromotionPremises(s, snapshot, order, replies)
    requires j < |order| && k in order[j].requestIds && k in s.nodes
    requires !Stuck(Lookup(snapshot, order[j].groupId, k).value, now) && ResolvedInstanceId(replies(k)).Some?
    ensures var nodes' := WaitingPass(s, snapshot, order, now, replies).state.nodes;
      var x := ResolvedInstanceId(replies(k)).value;
      && x in nodes'
      && nodes'[x].name == x && nodes'[x].instanceId == Some(x) && nodes'[x].elastigroupId == order[j].groupId
    decreases j
  {
    if j == 0 {
      FirstVisitRenames(s, snapshot, order, now, replies, k);
    } else {
      var g0, ids0 := order[0].groupId, order[0].requestIds;
      var o := HandleGroup(s, g0, Entries(snapshot, g0), ids0, now, replies);
      var later := order[1..];
      PassUnfold(s, snapshot, order, now, replies, o.state);
      PremisesAfterFirstVisit(s, snapshot, order, now, replies);
      LaterRequestKept(s, snapshot, order, now, replies, j, k);
      assert order[j] == later[j - 1];
      WaitingPassRenamesOne(o.state, snapshot, later, now, replies, j - 1, k);
    }
  }

  /**
    Promotion for the whole waiting pass: when every visited request is still
    waiting with its snapshot entry, no request id waits in two groups, every
    placeholder node belongs to its request's group, and the provider bound
    distinct requests to distinct, fresh instance ids, then no group throws
    and every young, bound request with a placeholder node has moved from
    waiting to initiating in its own group, under its instance id, stamped `now`.
   */
  lemma WaitingPassPromotes(s: State, snapshot: Table, order: seq<GroupVisit>, now: int, replies: Replies)
    requires forall j, k :: 0 <= j < |order| && k in order[j].requestIds ==> Lookup(snapshot, order[j].groupId, k).Some?
    requires forall i, j :: 0 <= i < j < |order| ==> order[i].groupId != order[j].groupId
    requires forall j :: 0 <= j < |order| ==> Distinct(order[j].requestIds)
    requires RequestsInOneGroup(snapshot) && FreshInstanceIds(snapshot, replies)
    requires forall j, k :: 0 <= j < |order| && k in order[j].requestIds ==>
      Lookup(s.waiting, order[j].groupId, k) == Lookup(snapshot, order[j].groupId, k)
    requires forall j, k :: 0 <= j < |order| && k in order[j].requestIds && k in s.nodes ==>
      s.nodes[k].elastigroupId == order[j].groupId
    ensures WaitingPass(s, snapshot, order, now, replies).aborted == {}
    ensures forall j, k :: 0 <= j < |order| && k in order[j].requestIds && k in s.nodes
                           && !Stuck(Lookup(snapshot, order[j].groupId, k).value, now) && ResolvedInstanceId(replies(k)).Some? ==>
      var r := WaitingPass(s, snapshot, order, now, replies);
      var entry := Lookup(snapshot, order[j].groupId, k).value;
      && Lookup(r.state.waiting, order[j].groupId, k).None?
      && Lookup(r.state.initiating, order[j].groupId, ResolvedInstanceId(replies(k)).value)
         == Some(ContextInstance(entry.numOfExecutors, entry.nodeLabel, now))
  {
    WaitingPassCompletes(s, snapshot, order, now, replies);
    forall j, k | 0 <= j < |order| && k in order[j].requestIds && k in s.nodes
                  && !Stuck(Lookup(snapshot, order[j].groupId, k).value, now) && ResolvedInstanceId(replies(k)).Some?
    {
      WaitingPassPromotesOne(s, snapshot, order, now, replies, j, k);
    }
  }

  // ---------------------------------------------------------------------------
  // The initiating sweep
  // ---------------------------------------------------------------------------

  /** `handleInitiatingInstance`: drop one initiating entry if it is stuck. */
  function HandleInitiatingInstance(t: Table, groupId: string, instanceId: string, now: int): (t': Table)
    requires Lookup(t, groupId, instanceId).Some?
    ensures t'.Keys == t.Keys
    ensures Lookup(t', groupId, instanceId).Some? <==> !Stuck(Lookup(t, groupId, instanceId).value, now)
    ensures forall g, k :: Lookup(t', g, k).Some? ==> Lookup(t', g, k) == Lookup(t, g, k)
    ensures AgreeExcept(t, t', groupId, instanceId)
  {
    if Stuck(t[groupId][instanceId], now) then Remove(t, groupId, instanceId) else t
  }

  /** `handleInitiatingForGroup`: every instance of one group, in any order. */
  method HandleInitiatingForGroup(t: Table, groupId: string, now: int) returns (t': Table)
    ensures t'.Keys == t.Keys
    ensures forall k :: Lookup(t', groupId, k).Some? <==>
      Lookup(t, groupId, k).Some? && !Stuck(Lookup(t, groupId, k).value, now)
    ensures forall g, k :: Lookup(t', g, k).Some? ==> Lookup(t', g, k) == Lookup(t, g, k)
    ensures forall g, k :: g != groupId ==> Lookup(t', g, k) == Lookup(t, g, k)
  {
    var remaining := Entries(t, groupId).Keys;
    t' := t;
    while remaining != {}
      invariant t'.Keys == t.Keys
      invariant forall k :: k in remaining ==> Lookup(t', groupId, k) == Lookup(t, groupId, k)
      invariant forall k :: k !in remaining ==>
        (Lookup(t', groupId, k).Some? <==> Lookup(t, groupId, k).Some? && !Stuck(Lookup(t, groupId, k).value, now))
      invariant forall g, k :: Lookup(t', g, k).Some? ==> Lookup(t', g, k) == Lookup(t, g, k)
      invariant forall g, k :: g != groupId ==> Lookup(t', g, k) == Lookup(t, g, k)
      decreases remaining
    {
      var instanceId :| instanceId in remaining;
      t' := HandleInitiatingInstance(t', groupId, instanceId, now);
      remaining := remaining - {instanceId};
    }
  }

  /** `removeStuckInitiatingInstances`: every group, in any order. */
  method RemoveStuckInitiatingInstances(t: Table, now: int) returns (t': Table)
    ensures t'.Keys == t.Keys
    ensures forall g, k :: Lookup(t', g, k).Some? <==> Lookup(t, g, k).Some? && !Stuck(Lookup(t, g, k).value, now)
    ensures forall g, k :: Lookup(t', g, k).Some? ==> Lookup(t', g, k) == Lookup(t, g, k)
  {
    var remaining := t.Keys;
    t' := t;
    while remaining != {}
      invariant t'.Keys == t.Keys
      invariant forall g, k :: g in remaining ==> Lookup(t', g, k) == Lookup(t, g, k)
      invariant forall g, k :: g !in remaining ==>
        (Lookup(t', g, k).Some? <==> Lookup(t, g, k).Some? && !Stuck(Lookup(t, g, k).value, now))
      invariant forall g, k :: Lookup(t', g, k).Some? ==> Lookup(t', g, k) == Lookup(t, g, k)
      decreases remaining
    {
      var groupId :| groupId in remaining;
      t' := HandleInitiatingForGroup(t', groupId, now);
      remaining := remaining - {groupId};
    }
  }

  // ---------------------------------------------------------------------------
  // The tick
  // ---------------------------------------------------------------------------

  /**
    The waiting pass over a tick's own waiting table, read per group: a group
    is recorded as thrown only for a young, bound request of its own, and
    every other group has lost its stuck requests.
   */
  lemma PassOverTable(s: State, now: int, replies: Replies, order: seq<GroupVisit>)
    requires Enumerates(s.waiting, order)
    ensures var pass := WaitingPass(s, s.waiting, order, now, replies);
      && (forall g :: g in pass.aborted ==>
            g in s.waiting && exists k :: k in s.waiting[g] && !Stuck(s.waiting[g][k], now) && ResolvedInstanceId(replies(k)).Some?)
      && (forall g, k :: Lookup(s.waiting, g, k).Some? && Stuck(Lookup(s.waiting, g, k).value, now) && g !in pass.aborted ==>
            Lookup(pass.state.waiting, g, k).None?)
  {
  }

  /**
    The promotion half of `Execute`: under the premises of `PremisesOfTick`,
    the waiting pass throws nowhere, and every promoted entry, being stamped
    with the current time, survives the initiating sweep that follows.
   */
  lemma TickPromotes(s: State, now: int, replies: Replies, order: seq<GroupVisit>, swept: Table)
    requires Enumerates(s.waiting, order)
    requires RequestsInOneGroup(s.waiting) && NodesInOwnGroups(s.waiting, s.nodes) && FreshInstanceIds(s.waiting, replies)
    requires var pass := WaitingPass(s, s.waiting, order, now, replies);
      && (forall g, k :: Lookup(swept, g, k).Some? <==>
            Lookup(pass.state.initiating, g, k).Some? && !Stuck(Lookup(pass.state.initiating, g, k).value, now))
      && (forall g, k :: Lookup(swept, g, k).Some? ==> Lookup(swept, g, k) == Lookup(pass.state.initiating, g, k))
    ensures var pass := WaitingPass(s, s.waiting, order, now, replies);
      && pass.aborted == {}
      && forall g, k :: Lookup(s.waiting, g, k).Some? && k in s.nodes && !Stuck(Lookup(s.waiting, g, k).value, now)
                        && ResolvedInstanceId(replies(k)).Some? ==>
           && Lookup(pass.state.waiting, g, k).None?
           && Lookup(swept, g, ResolvedInstanceId(replies(k)).value)
              == Some(ContextInstance(Lookup(s.waiting, g, k).value.numOfExecutors, Lookup(s.waiting, g, k).value.nodeLabel, now))
  {
    PremisesOfTick(s, order, replies);
    WaitingPassPromotes(s, s.waiting, order, now, replies);
    forall g, k | Lookup(s.waiting, g, k).Some? && k in s.nodes && !Stuck(Lookup(s.waiting, g, k).value, now)
                  && ResolvedInstanceId(replies(k)).Some?
      ensures Lookup(WaitingPass(s, s.waiting, order, now, replies).state.waiting, g, k).None?
      ensures Lookup(swept, g, ResolvedInstanceId(replies(k)).value)
        == Some(ContextInstance(Lookup(s.waiting, g, k).value.numOfExecutors, Lookup(s.waiting, g, k).value.nodeLabel, now))
    {
      var j :| 0 <= j < |order| && order[j].groupId == g;
      assert k in order[j].requestIds;
    }
  }

  /** The registry through a tick's waiting pass: a node no waiting request is named after or bound to is untouched. */
  lemma TickNodesFrame(s: State, now: int, replies: Replies, order: seq<GroupVisit>, n: string)
    requires Enumerates(s.waiting, order)
    requires NotTracked(s.waiting, replies, n)
    ensures var nodes' := WaitingPass(s, s.waiting, order, now, replies).state.nodes;
      (n in nodes' <==> n in s.nodes) && (n in nodes' ==> nodes'[n] == s.nodes[n])
  {
    forall j | 0 <= j < |order|
      ensures n !in order[j].requestIds && forall k :: k in order[j].requestIds ==> ResolvedInstanceId(replies(k)) != Some(n)
    {
      forall k | k in order[j].requestIds ensures k != n && ResolvedInstanceId(replies(k)) != Some(n) {
        assert Lookup(s.waiting, order[j].groupId, k).Some?;
      }
    }
    WaitingPassNodesFrame(s, s.waiting, order, now, replies, n);
  }

  /**
    The rename half of `Execute`: under the premises of `PremisesOfTick`, every
    young, bound request with a placeholder node ends the waiting pass with a
    node named after its instance, carrying that instance id and its group.
   */
  lemma TickRenames(s: State, now: int, replies: Replies, order: seq<GroupVisit>)
    requires Enumerates(s.waiting, order)
    requires RequestsInOneGroup(s.waiting) && NodesInOwnGroups(s.waiting, s.nodes) && FreshInstanceIds(s.waiting, replies)
    ensures var nodes' := WaitingPass(s, s.waiting, order, now, replies).state.nodes;
      forall g, k :: Lookup(s.waiting, g, k).Some? && k in s.nodes && !Stuck(Lookup(s.waiting, g, k).value, now)
                     && ResolvedInstanceId(replies(k)).Some? ==>
        var x := ResolvedInstanceId(replies(k)).value;
        x in nodes' && nodes'[x].name == x && nodes'[x].instanceId == Some(x) && nodes'[x].elastigroupId == g
  {
    PremisesOfTick(s, order, replies);
    forall g, k | Lookup(s.waiting, g, k).Some? && k in s.nodes && !Stuck(Lookup(s.waiting, g, k).value, now)
                  && ResolvedInstanceId(replies(k)).Some?
      ensures var nodes' := WaitingPass(s, s.waiting, order, now, replies).state.nodes;
        var x := ResolvedInstanceId(replies(k)).value;
        x in nodes' && nodes'[x].name == x && nodes'[x].instanceId == Some(x) && nodes'[x].elastigroupId == g
    {
      var j :| 0 <= j < |order| && order[j].groupId == g;
      assert k in order[j].requestIds;
      WaitingPassRenamesOne(s, s.waiting, order, now, replies, j, k);
    }
  }

  /**
    `execute`: the waiting pass over the waiting table as it stands at the
    start of the tick, in the iteration order `order`, then the initiating
    sweep, which runs whether or not anything was waiting. `aborted` holds
    the groups whose handling threw.
   */
  method Execute(s: State, now: int, replies: Replies, order: seq<GroupVisit>) returns (s': State, aborted: set<string>)
    requires Enumerates(s.waiting, order)
    ensures WaitingShrinks(s.waiting, s'.waiting)
    // a group throws only if one of its young requests was found bound
    ensures forall g :: g in aborted ==>
      g in s.waiting && exists k :: k in s.waiting[g] && !Stuck(s.waiting[g][k], now) && ResolvedInstanceId(replies(k)).Some?
    // so a group none of whose young requests is bound always has its stuck requests removed
    ensures forall g, k :: Lookup(s.waiting, g, k).Some? && Stuck(Lookup(s.waiting, g, k).value, now)
                           && (forall k' :: k' in s.waiting[g] && !Stuck(s.waiting[g][k'], now) ==> ResolvedInstanceId(replies(k')).None?) ==>
      Lookup(s'.waiting, g, k).None?
    // stuck waiting requests are gone, unless their own group threw
    ensures forall g, k :: Lookup(s.waiting, g, k).Some? && Stuck(Lookup(s.waiting, g, k).value, now) && g !in aborted ==>
      Lookup(s'.waiting, g, k).None?
    // a young request the provider has not bound stays, whatever other groups did
    ensures forall g, k :: Lookup(s.waiting, g, k).Some? && !Stuck(Lookup(s.waiting, g, k).value, now)
                           && ResolvedInstanceId(replies(k)).None? ==>
      Lookup(s'.waiting, g, k) == Lookup(s.waiting, g, k)
    // no stuck initiating entry survives the tick, and none that is young is lost
    ensures forall g, k :: Lookup(s'.initiating, g, k).Some? ==> !Stuck(Lookup(s'.initiating, g, k).value, now)
    ensures forall g, k :: Lookup(s.initiating, g, k).Some? && !Stuck(Lookup(s.initiating, g, k).value, now) ==>
      Lookup(s'.initiating, g, k).Some?
    ensures forall g, k :: Lookup(s'.initiating, g, k).Some? ==>
      Lookup(s'.initiating, g, k) == Lookup(s.initiating, g, k) || Lookup(s'.initiating, g, k).value.createdAt == now
    // with request ids in one group each, nodes in their request's group and fresh, distinct instance ids,
    // no group throws and every young, bound request with a placeholder node is promoted
    ensures RequestsInOneGroup(s.waiting) && NodesInOwnGroups(s.waiting, s.nodes) && FreshInstanceIds(s.waiting, replies) ==>
      && aborted == {}
      && forall g, k :: Lookup(s.waiting, g, k).Some? && k in s.nodes && !Stuck(Lookup(s.waiting, g, k).value, now)
                        && ResolvedInstanceId(replies(k)).Some? ==>
           && Lookup(s'.waiting, g, k).None?
           && Lookup(s'.initiating, g, ResolvedInstanceId(replies(k)).value)
              == Some(ContextInstance(Lookup(s.waiting, g, k).value.numOfExecutors, Lookup(s.waiting, g, k).value.nodeLabel, now))
    // the registry: a node that no waiting request is named after or bound to is untouched
    ensures forall n :: NotTracked(s.waiting, replies, n) ==>
      (n in s'.nodes <==> n in s.nodes) && (n in s'.nodes ==> s'.nodes[n] == s.nodes[n])
    // under the same premises, every promoted request's node now bears its instance id, in its group
    ensures RequestsInOneGroup(s.waiting) && NodesInOwnGroups(s.waiting, s.nodes) && FreshInstanceIds(s.waiting, replies) ==>
      forall g, k :: Lookup(s.waiting, g, k).Some? && k in s.nodes && !Stuck(Lookup(s.waiting, g, k).value, now)
                     && ResolvedInstanceId(replies(k)).Some? ==>
        var x := ResolvedInstanceId(replies(k)).value;
        x in s'.nodes && s'.nodes[x].name == x && s'.nodes[x].instanceId == Some(x) && s'.nodes[x].elastigroupId == g
  {
    var pass := WaitingPass(s, s.waiting, order, now, replies);
    var initiating := RemoveStuckInitiatingInstances(pass.state.initiating, now);
    s' := pass.state.(initiating := initiating);
    aborted := pass.aborted;
    PassOverTable(s, now, replies, order);
    if RequestsInOneGroup(s.waiting) && NodesInOwnGroups(s.waiting, s.nodes) && FreshInstanceIds(s.waiting, replies) {
      TickPromotes(s, now, replies, order, initiating);
      TickRenames(s, now, replies, order);
    }
    forall n | NotTracked(s.waiting, replies, n)
      ensures (n in s'.nodes <==> n in s.nodes) && (n in s'.nodes ==> s'.nodes[n] == s.nodes[n])
    {
      TickNodesFrame(s, now, replies, order, n);
    }
  }
}

=== FILE: text.dfy ===
/**
  String helpers the gateway relies on: the decimal rendering of an `int`
  (Java's `String.valueOf(int)`) with its parser, and left-to-right literal
  replacement (Java's `String.replace(CharSequence, CharSequence)`).
 */
module Text {
  import opened Wrappers

  predicate IsDigit(c: char) {
    '0' <= c <= '9'
  }

  predicate AllDigits(s: string) {
    forall i :: 0 <= i < |s| ==> IsDigit(s[i])
  }

  function DigitValue(c: char): nat
    requires IsDigit(c)
  {
    (c as int) - ('0' as int)
  }

  function DigitChar(d: nat): (c: char)
    requires d < 10
    ensures IsDigit(c) && DigitValue(c) == d
  {
    (('0' as int) + d) as char
  }

  /** Decimal digits of `n`, most significant first, without leading zeros. */
  function NatToDecimal(n: nat): (s: string)
    ensures |s| > 0 && AllDigits(s)
    ensures s[0] == '0' ==> n == 0 && |s| == 1
    decreases n
  {
    if n < 10 then [DigitChar(n)] else NatToDecimal(n / 10) + [DigitChar(n % 10)]
  }

  /** The number a run of decimal digits denotes (the empty run denotes 0). */
  function DigitsValue(s: string): nat
    requires AllDigits(s)
    decreases |s|
  {
    if |s| == 0 then 0 else 10 * DigitsValue(s[..|s| - 1]) + DigitValue(s[|s| - 1])
  }

  /** Digits without a leading zero, unless the number is 0 itself. */
  predicate CanonicalDigits(s: string) {
    |s| > 0 && AllDigits(s) && (s[0] == '0' ==> |s| == 1)
  }

  /** The form `String.valueOf(int)` writes: canonical digits, after a minus sign only for a non-zero value. */
  predicate CanonicalDecimal(s: string) {
    if |s| > 0 && s[0] == '-' then CanonicalDigits(s[1..]) && s[1] != '0' else CanonicalDigits(s)
  }

  /** `String.valueOf(int)`: an optional minus sign followed by the digits of the magnitude. */
  function IntToDecimal(n: int): (s: string)
    ensures CanonicalDecimal(s)
    ensures s[0] == '-' <==> n < 0
  {
    if n < 0 then "-" + NatToDecimal(-n) else NatToDecimal(n)
  }

  /** Reads back what `IntToDecimal` writes; `None` for anything else that is not a number. */
  function ParseDecimal(s: string): Option<int>
  {
    if |s| > 1 && s[0] == '-' && AllDigits(s[1..]) then Some(0 - DigitsValue(s[1..]) as int)
    else if |s| > 0 && AllDigits(s) then Some(DigitsValue(s))
    else None
  }

  lemma {:induction false} NatToDecimalValue(n: nat)
    ensures DigitsValue(NatToDecimal(n)) == n
    decreases n
  {
    if n >= 10 {
      var s := NatToDecimal(n);
      NatToDecimalValue(n / 10);
      assert s[..|s| - 1] == NatToDecimal(n / 10);
    }
  }

  /** The decimal rendering of every integer parses back to that integer. */
  lemma DecimalRoundTrip(n: int)
    ensures ParseDecimal(IntToDecimal(n)) == Some(n)
  {
    var s := IntToDecimal(n);
    if n < 0 {
      var digits := NatToDecimal(-n);
      NatToDecimalValue(-n);
      assert s == "-" + digits;
      assert s[1..] == digits;
    } else {
      NatToDecimalValue(n);
      assert IsDigit(s[0]);
    }
  }

  /** Canonical digits are the rendering of the number they denote. */
  lemma {:induction false} CanonicalDigitsRendering(s: string)
    requires CanonicalDigits(s)
    ensures NatToDecimal(DigitsValue(s)) == s
    decreases |s|
  {
    var last := s[|s| - 1];
    if |s| == 1 {
      assert DigitsValue(s) == DigitValue(last);
      assert DigitChar(DigitValue(last)) == last;
    } else {
      var front := s[..|s| - 1];
      assert front[0] == s[0];
      CanonicalDigitsRendering(front);
      assert DigitsValue(front) != 0;
      var n := DigitsValue(s);
      assert n / 10 == DigitsValue(front) && n % 10 == DigitValue(last);
      assert DigitChar(DigitValue(last)) == last;
      assert s == front + [last];
    }
  }

  /**
    A canonical decimal string is the rendering of the number it parses to:
    with `DecimalRoundTrip`, `IntToDecimal(n)` is the only canonical string
    that reads back as `n`.
   */
  lemma DecimalUnique(s: string, n: int)
    requires CanonicalDecimal(s) && ParseDecimal(s) == Some(n)
    ensures s == IntToDecimal(n)
  {
    if s[0] == '-' {
      CanonicalDigitsRendering(s[1..]);
      assert s == "-" + s[1..];
    } else {
      CanonicalDigitsRendering(s);
    }
  }

  /**
    Every non-overlapping occurrence of `pattern`, scanning left to right,
    replaced by `replacement`; the replacement text is not rescanned.
   */
  function ReplaceAll(s: string, pattern: string, replacement: string): string
    requires |pattern| > 0
    decreases |s|
  {
    if |s| < |pattern| then s
    else if s[..|pattern|] == pattern then replacement + ReplaceAll(s[|pattern|..], pattern, replacement)
    else [s[0]] + ReplaceAll(s[1..], pattern, replacement)
  }

  /** Where the pattern does not start, the first character is kept and the scan moves on. */
  lemma ReplaceAllSkip(s: string, pattern: string, replacement: string)
    requires 0 < |pattern| <= |s| && s[..|pattern|] != pattern
    ensures ReplaceAll(s, pattern, replacement) == [s[0]] + ReplaceAll(s[1..], pattern, replacement)
  {
  }

  /** Where the pattern starts, it is replaced and the scan resumes after it. */
  lemma ReplaceAllMatch(s: string, pattern: string, replacement: string)
    requires 0 < |pattern| <= |s| && s[..|pattern|] == pattern
    ensures ReplaceAll(s, pattern, replacement) == replacement + ReplaceAll(s[|pattern|..], pattern, replacement)
  {
  }

  /** A string that starts with the pattern has that occurrence replaced first. */
  lemma ReplaceAllLeading(pattern: string, b: string, replacement: string)
    requires |pattern| > 0
    ensures ReplaceAll(pattern + b, pattern, replacement) == replacement + ReplaceAll(b, pattern, replacement)
  {
    var s := pattern + b;
    assert s[..|pattern|] == pattern;
    assert s[|pattern|..] == b;
    ReplaceAllMatch(s, pattern, replacement);
  }

  /** The shape of `x + y + z` around its first character, when `x` is not empty. */
  lemma SplitFirst(x: string, y: string, z: string)
    requires |x| > 0
    ensures (x + y + z)[0] == x[0] && (x + y + z)[1..] == x[1..] + y + z
    ensures [x[0]] + (x[1..] + y + z) == x + y + z
  {
    assert x == [x[0]] + x[1..];
  }

  /** A character absent from a non-empty string is absent from its first character and its tail. */
  lemma AbsentSplit(c: char, x: string)
    requires |x| > 0 && c !in x
    ensures x[0] != c && c !in x[1..]
  {
    assert x == [x[0]] + x[1..];
  }

  /** A string that lacks the first character of the pattern is left alone. */
  lemma {:induction false} ReplaceAllAbsent(s: string, pattern: string, replacement: string)
    requires |pattern| > 0 && pattern[0] !in s
    ensures ReplaceAll(s, pattern, replacement) == s
    decreases |s|
  {
    if |s| >= |pattern| {
      AbsentSplit(pattern[0], s);
      assert s[..|pattern|][0] == s[0];
      ReplaceAllSkip(s, pattern, replacement);
      ReplaceAllAbsent(s[1..], pattern, replacement);
      SplitFirst(s, [], []);
    }
  }

  /**
    When the head `a` cannot start an occurrence, the first occurrence is the
    one right after it.
   */
  lemma {:induction false} ReplaceAllAfterHead(a: string, pattern: string, b: string, replacement: string)
    requires |pattern| > 0 && pattern[0] !in a
    ensures ReplaceAll(a + pattern + b, pattern, replacement) == a + replacement + ReplaceAll(b, pattern, replacement)
    decreases |a|
  {
    if |a| == 0 {
      assert a + pattern + b == pattern + b;
      ReplaceAllLeading(pattern, b, replacement);
    } else {
      var s := a + pattern + b;
      AbsentSplit(pattern[0], a);
      SplitFirst(a, pattern, b);
      assert s[..|pattern|][0] == s[0];
      ReplaceAllSkip(s, pattern, replacement);
      ReplaceAllAfterHead(a[1..], pattern, b, replacement);
      SplitFirst(a, replacement, ReplaceAll(b, pattern, replacement));
    }
  }

  /** Re-association around a leading character, stated apart from any other hypothesis. */
  lemma ConsConcat(c: char, x: string, y: string, z: string)
    ensures ([c] + x + y + z)[0] == c && ([c] + x + y + z)[1..] == x + y + z
    ensures [c] + (x + y + z) == [c] + x + y + z
  {
  }

  /**
    A string with exactly one occurrence of the pattern, after a character
    `c` and a head `a` that cannot start one, has that occurrence replaced.
   */
  lemma ReplaceAllSingle(c: char, a: string, pattern: string, b: string, replacement: string)
    requires |pattern| > 1 && |a| > 0 && a[0] != pattern[1]
    requires pattern[0] !in a && pattern[0] !in b
    ensures ReplaceAll([c] + a + pattern + b, pattern, replacement) == [c] + a + replacement + b
  {
    var s := [c] + a + pattern + b;
    ConsConcat(c, a, pattern, b);
    assert s[1] == s[1..][0] == a[0];
    assert s[..|pattern|][1] == s[1];
    ReplaceAllSkip(s, pattern, replacement);
    ReplaceAllAfterHead(a, pattern, b, replacement);
    ReplaceAllAbsent(b, pattern, replacement);
    ConsConcat(c, a, replacement, b);
  }
}

=== FILE: wrappers.dfy ===
/** The Some/None datatype that stands in for Java's nullable references. */
module Wrappers {

  datatype Option<+T> = None | Some(value: T)

}
